=== FILE: README.md ===
# Wallet transaction history and on-chain sends — a Dafny model

This project models two parts of a Bitcoin/USD custodial wallet backend.

- **The transaction-history translator.** Each ledger row of a wallet becomes a
  `WalletTransaction`. The translator tags the row with its initiation and
  settlement method and decides whether its memo is shown. It fills in
  defaults: a USD display currency and a `"<no-address>"` on-chain address.
  The legacy admin rows take their display amount and fees from the legacy
  `usd`/`feeUsd`/`fee` fields, and a BTC admin row's wallet amount is the size
  of its settlement amount.
  Unconfirmed incoming on-chain outputs that pay into a wallet's addresses
  become synthetic `Pending` transactions, placed ahead of the confirmed
  history. The signed settlement amounts the translator uses are modelled too.
- **Sending to an on-chain address.** The address may belong to another wallet
  of the system. The payment is then settled inside the ledger, under the
  intraledger or the same-account trade limit. Otherwise the sender's ledger
  is debited the amount plus fee, the payment is broadcast on chain, and
  chosen broadcast failures are compensated by reverting the debit.

Modules:

| file | module | what it holds |
|---|---|---|
| `wrappers.dfy` | `Wrappers` | `Option`, `Result` |
| `shared.dfy` | `Shared` | wallet currency, display amounts, JavaScript truthiness and `\|\|` defaults |
| `errors.dfy` | `Errors` | the error kinds the send path distinguishes |
| `ledger.dfy` | `Ledger` | the ledger row and its type tags |
| `wallet_types.dfy` | `WalletTypes` | the wallet-transaction union, pending-deposit inputs, payment-input validation |
| `settlement_amounts.dfy` | `SettlementAmounts` | signed settlement amount and display amounts of a row |
| `tx_history.dfy` | `TxHistory` | memo rules, display price, row translation, confirmed history, pending incoming |
| `payment_flow.dfy` | `PaymentFlows` | the priced payment flow and the sender's ledger (balance and journals) |
| `send_on_chain.dfy` | `SendOnChain` | the send entry point and the intraledger and on-chain execution paths |

Every collaborator the send path calls is a field of an oracle record: the
repositories, price and limit services, the wallet lock, the flow builder and
the on-chain wallet. A field's value is what that collaborator returns. The
state is the sender's ledger. A run returns its outcome, the final ledger and
the externally visible effects in order: input validation, limit checks,
broadcasts, miner-fee lookups and recipient notifications.

## Model

| member | source | states |
|---|---|---|
| `TxHistory.TranslateMemo` | src/domain/wallets/tx-history.ts:312-358 | an internal wallet always sees `JournalId:<journal>`. Any other wallet sees a memo if and only if one is non-empty and it is an onboarding key, or the credit is 0, or the credit reaches the currency's threshold. The payer's memo takes precedence over the invoice memo |
| `TxHistory.MemoVisibilityRules` | src/domain/wallets/tx-history.ts:312-329 | an onboarding-reward memo and a zero credit always share. Otherwise a memo shares exactly when the credit reaches the currency's threshold, so a larger positive credit shares whenever a smaller one does. An empty or missing memo is never an onboarding-reward memo |
| `TxHistory.DisplayCurrencyPerBaseUnitFromAmounts` | src/domain/wallets/tx-history.ts:366-387 | a zero wallet amount gives price 0 instead of dividing by zero. Otherwise price × wallet amount = display amount. Both currencies are carried over |
| `TxHistory.TranslateLedgerTxnToWalletTxn` | src/domain/wallets/tx-history.ts:102-180 | the result is always a member of the transaction union. Id, wallet and time are copied. The status is pending exactly when the row awaits confirmation. The amount is signed by direction in the row's currency. The fee comes from the row's currency, or from the legacy fields for admin rows. The display amount and display fee are the row's settlement display figures. The display price is the zero-guarded ratio of the display amount to the wallet amount (for admin rows: the legacy cents, over `|settlementAmount|` on BTC rows), in the row's display currency, where a missing or empty one means USD. The memo follows the memo rules |
| `TxHistory.TranslateTypeTags` | src/domain/wallets/tx-history.ts:182-288 | each ledger type tag maps to its initiation/settlement pair. An intraledger row carrying a payment hash is Lightning intraledger. The address defaults to `<no-address>`. Usernames become null only on the non-plain intraledger shapes. Unknown tags fall back to intraledger |
| `TxHistory.TranslateWellTypedIff` | src/domain/wallets/tx-history.ts:191-288 | the unchecked casts yield a value of the declared type if and only if the row carries the fields the chosen shape needs |
| `TxHistory.FromLedger` | src/domain/wallets/tx-history.ts:293-302 | the confirmed history translates every row in order: same length, and element i is the translation of row i |
| `TxHistory.AddPendingIncoming` | src/domain/wallets/tx-history.ts:304-308 | the result is the pending items followed by the unchanged confirmed transactions |
| `TxHistory.PendingForOutputMembers` | src/domain/wallets/tx-history.ts:25-32 | membership: an item is produced for an output exactly when some wallet's address list contains the output's non-empty address, and it is the item for that wallet |
| `TxHistory.PendingForOutputsMembers` | src/domain/wallets/tx-history.ts:24-32 | a transaction's items are exactly those of its outputs that pay into a listed wallet |
| `TxHistory.PendingForTxsMembers` | src/domain/wallets/tx-history.ts:23-32 | the items of all pending transactions are exactly the matching (transaction, output, wallet) triples |
| `TxHistory.FilterPendingIncomingMembers` | src/domain/wallets/tx-history.ts:17-100 | t is a pending item if and only if some pending output pays into some listed wallet's address and t is the item built for that triple |
| `TxHistory.FilterPendingIncomingInOrder` | src/domain/wallets/tx-history.ts:17-100 | the pending items are exactly one per matching (transaction, output, wallet entry) position. No position is dropped and none repeats. They come in the loops' order: transactions, then their outputs, then the wallet entries |
| `TxHistory.PendingItemsArePending` | src/domain/wallets/tx-history.ts:73-93 | every pending item is `Pending`, has no memo, is settled on chain under its transaction hash, and is a well-typed on-chain settled transaction |
| `TxHistory.MatchItemAmounts` | src/domain/wallets/tx-history.ts:33-60 | an item's wallet and address are the matched ones, and its currency is the wallet's. A BTC wallet gets sats minus deposit fee and the fee. A USD wallet with no price ratio gets 0 and 0 |
| `SettlementAmounts.FromTxn` | test/unit/domain/wallets/settlement-amounts.spec.ts:6-222 | the settlement amount is +credit or −debit. The display amount is the stored display value of whichever of amount, fee, amount+fee or amount−fee equals the booked value, negated for debits. The display fee is the row's display fee. USD is the default display currency |
| `SettlementAmounts.FromTxnMirror` | test/unit/domain/wallets/settlement-amounts.spec.ts:76-144 | booking the same figures as a debit instead of a credit negates the settlement and display amounts and leaves the display fee unchanged |
| `WalletTypes.VariantOf` | src/domain/wallets/index.types.d.ts:66-112 | a (initiation, settlement) pair is one of the seven union members exactly when the union admits it. For each member separately, the pair maps to that member if and only if it has that member's initiation and settlement kinds |
| `WalletTypes.ValidatePaymentInput` | src/domain/wallets/index.types.d.ts:206-224 | on success, a recipient wallet is present exactly when a recipient id was given. Both wallets are the ones the lookup returned, and the sender account passed its check against the sender wallet. A failure comes from a failing amount check, a failing lookup or a failing sender-account check |
| `PaymentFlows.Record` | src/app/wallets/send-on-chain.ts:553-575 | recording a journal appends it and lowers the balance by its debit |
| `PaymentFlows.RevertJournal` | src/app/wallets/send-on-chain.ts:589-592 | reverting gives the debit back and marks that journal, and only that journal, reverted. Every other journal is unchanged |
| `PaymentFlows.SetOnChainTxSendHash` | src/app/wallets/send-on-chain.ts:604-608 | that journal, and only that journal, gets the broadcast hash. Every other journal and the balance are unchanged |
| `PaymentFlows.RecordThenRevertRestoresBalance` | src/app/wallets/send-on-chain.ts:589-592 | recording a journal and then reverting it restores the balance. The earlier journals stay as they were, and the new one stays on record, marked reverted |
| `SendOnChain.IntraledgerJournal` | src/app/wallets/send-on-chain.ts:340-395 | the intraledger journal debits the amount only, in the sender's currency. It is a trade entry exactly when the accounts match |
| `SendOnChain.IntraledgerLockedSection` | src/app/wallets/send-on-chain.ts:280-424 | the ledger changes only by the one intraledger journal, and only after a successful balance read, a passing balance check and an intact lock. It never overdraws. Insufficient balance and an expired lock fail with no effect. Success notifies the recipient |
| `SendOnChain.ExecutePaymentViaIntraledger` | src/app/wallets/send-on-chain.ts:221-279 | a flow without a recipient wallet or with a missing or empty recipient user id is a builder-state error. Each limit check uses the category of the looked-up recipient, for the sender's account and the flow's USD amount. There is no commit unless every gate passed. A commit debits exactly the flow's amount in the sender's currency and never overdraws. Nothing is broadcast |
| `SendOnChain.BalanceCheckIsNoOverdraft` | src/app/wallets/send-on-chain.ts:492-493 | a bridge, following directly from the definitions: the reconstructed balance check (see "## Left out") admits a flow exactly when recording its on-chain journal leaves the balance non-negative |
| `SendOnChain.LockedOnChainSend` | src/app/wallets/send-on-chain.ts:480-626 | nothing is written or broadcast unless every check up to the ledger record passes. The one new journal is an on-chain send debiting the debited flow's amount + fee. The record precedes the broadcast. An insufficient-funds or CPFP broadcast failure reverts the debit, or else surfaces the revert's error. Other broadcast failures keep the debit. Success stores the tx hash. The balance drops by the debited flow's total or not at all |
| `SendOnChain.OnChainLockedSectionAsWritten` | src/app/wallets/send-on-chain.ts:480-575 | the code as written. A write implies that the balance check passed for the second fee estimate, while the new journal debits the third estimate's total. The balance drops by that total or not at all. It stays non-negative when the third total is no larger than the second. With equal estimates the run is the corrected one |
| `SendOnChain.OnChainLockedSection` | src/app/wallets/send-on-chain.ts:480-626 | corrected: the flow that passed the balance check is the one debited. The balance changes by exactly that total or not at all, and never goes negative |
| `SendOnChain.AsWrittenDebitsUncheckedFlow` | src/app/wallets/send-on-chain.ts:482-505 | when the second estimate passed the balance check but the third estimate's total exceeds the balance, the written code still debits the third. If `recordSend` (send-on-chain.ts:553) then accepts that debit, the balance ends negative. The ledger's own balance rule for `recordSend` is not modelled |
| `SendOnChain.AsWrittenOverdrawsExample` | src/app/wallets/send-on-chain.ts:482-505 | concrete case: balance 1000 sats, total 1000 at the check and 1010 at the debit. If `recordSend` accepts the debit, the final balance is −10 |
| `SendOnChain.MinerFeeLookupIsNonFatal` | src/app/wallets/send-on-chain.ts:610-625 | whichever flow is debited, the final miner-fee lookup cannot change a run's outcome, ledger or effects; this holds for the code as written and for the corrected section |
| `SendOnChain.ExecutePaymentViaOnChain` | src/app/wallets/send-on-chain.ts:427-626 | the code as written. The only limit checked is the withdrawal limit, with the sender's account and the proposed USD amount. Writes happen only after every pre-lock gate, the balance check and an intact lock. The balance drops by the third fee estimate's total or not at all. It stays non-negative only when that total is no larger than the checked one. Success holds exactly when every step succeeds |
| `SendOnChain.ExecutePaymentViaOnChainCorrected` | src/app/wallets/send-on-chain.ts:427-626 | corrected: as `ExecutePaymentViaOnChain`, but debiting the flow that passed the balance check, so there is never an overdraft |
| `SendOnChain.PayOnChainByWalletId` | src/app/wallets/send-on-chain.ts:57-187 | send-all on a zero balance fails with insufficient balance and no effect. The validated amount is the whole balance under send-all. A recipient-lookup error other than "not found" aborts with the ledger untouched. A found wallet takes the intraledger path and a not-found address the on-chain path. Limit categories match the path. On the on-chain path, success holds exactly when every step succeeds. The ledger changes only when that path's gates pass. Intraledger debits the amount and never overdraws. On chain, the third fee estimate's total is debited, with no overdraft only when it does not exceed the checked total. Only external addresses are broadcast to |

## Left out

- Floating point: display prices and legacy dollar fields are exact reals, so IEEE rounding of the division and of `Math.round(usd * 100)` is not modelled.
- `displayInMajor` formatting of display amounts (minor units are kept), and BigInt conversion.
- The price, limit, lock, repository, dealer, notification and on-chain wallet services are oracles. Their own rules are not part of this model. This covers the deposit-fee formula, the `convertFrom*` price conversions, the address and target-confirmation checks and the on-chain available balance check.
- The payment flow builder (`OnChainPaymentFlowBuilder`, `getMinerFeeAndPaymentFlow`) is not part of this model. Its flows are oracle values, and its fee computation is not modelled.
- `checkBalanceForSend` is reconstructed as "balance ≥ amount + protocol-and-bank fee in the sender's currency". The flow's own code is not part of this model.
- WalletTypes.ValidatePaymentInput: the validator's code is not part of this model. Its amount and currency rules are one oracle result. Its check of `senderAccount` against the sender wallet is a second oracle; the account is represented by its id. The order of the checks is assumed: amount, then the sender lookup, then the account check, then the recipient lookup. Only the lookup structure and the result shape are modelled.
- SendOnChain.AsWrittenDebitsUncheckedFlow: `recordSend`'s outcome is an oracle that does not depend on the debit or the balance. Any balance rule of the ledger itself is not part of this model, so the overdraft shown holds only when the ledger accepts a debit larger than the balance.
- Concurrency: the wallet lock is reduced to "acquired or not" and "expired by the lock check or not". Interleavings with other sends are not modelled.
- The random placeholder transaction hash is modelled as "no hash yet" (`None`). Logging, tracing attributes and ledger metadata records are not modelled.
- On the on-chain path the result of `addressForFlow` (send-on-chain.ts:465) is never error-checked and is used only in the broadcast-failure log (send-on-chain.ts:597), so it is left out. The `btcProtocolAndBankFee instanceof Error` guard is left out because a flow's fee is always a number here.
- The three wallet-type wrappers (`payOnChainByWalletIdForBtcWallet` and its siblings) only pre-validate the wallet type and fix the currency. They are not modelled separately.
- Admin ledger type tags are assumed distinct from the ten named tags.
- SettlementAmounts.FromTxn: the implementation is not part of this model. Its contract follows the test cases. When no combination of amount and fee matches the booked value, the display amount is 0; the tests do not fix this case. When several combinations match, the contract picks amount first, then fee, then amount + fee, then amount − fee; the tests never produce such a tie, so this order is the model's choice.
- SettlementAmounts.FromTxn: rows with both a debit and a credit, and negative credits, are outside the contract's display clauses.
- TxHistory.FilterPendingIncoming requires that every wallet in the address map has details. The source dereferences a missing entry and throws once some output has an address; the model treats that case as outside its domain. The requirement also excludes inputs where no output has an address, on which the source returns `[]` without reading any details.
- The flow builder's `isIntraLedger` is not part of this model. It is given `isExternalAddress`, which holds exactly when the address lookup reported "not found". The model therefore takes the intraledger path exactly when the lookup found a wallet. The `CouldNotFindError` return inside the intraledger branch (send-on-chain.ts:142) cannot be reached under that reading.
- On-chain rows without an address, legacy ones included, get `"<no-address>"` (tx-history.ts:187 and the `|| defaultOnChainAddress` defaults after it).
- The translator keeps the row's posted currency and amount (tx-history.ts:166-168); it does no currency conversion.
- Intraledger settlements put the username in raw for plain intraledger and trade rows, and `username || null` for the others. The model follows the code.

## Findings

| source | as written | input that shows it | evidently intended | confidence | as-written member | corrected member |
|---|---|---|---|---|---|---|
| src/app/wallets/send-on-chain.ts:482-505 | inside the lock the balance is checked against `paymentFlowForBalance`, then the fee is estimated again and that third flow is what `recordSend` debits | balance 1000 sats, amount 900; fee 100 at the balance check, 110 at the debit. The check passes (1000 ≥ 1000). If `recordSend` (send-on-chain.ts:553) accepts a debit larger than the balance, 1010 is debited and the balance ends at −10. Whether the ledger rejects such a debit is not part of this model | debit the flow whose total passed the balance check, so a send never overdraws | low: fee estimates can move between calls, but the size of the window is unknown, and the ledger may refuse the larger debit; not executed | `SendOnChain.OnChainLockedSectionAsWritten`, `SendOnChain.ExecutePaymentViaOnChain` (with `SendOnChain.AsWrittenDebitsUncheckedFlow`, `SendOnChain.AsWrittenOverdrawsExample`) | `SendOnChain.OnChainLockedSection`, `SendOnChain.ExecutePaymentViaOnChainCorrected` |

=== FILE: errors.dfy ===
/** The error values the payment path distinguishes by kind. Every other
    error a collaborator can return is carried opaquely by `OtherError`. */
module Errors {

  datatype AppError =
    | InsufficientBalanceError
    | CouldNotFindError
    | ResourceExpiredLockServiceError
    | InsufficientOnChainFundsError
    | CPFPAncestorLimitReachedError
    | InvalidLightningPaymentFlowBuilderStateError
    | OtherError(name: string)
}

=== FILE: ledger.dfy ===
/** The ledger row the history translator consumes: one posting of a journal
    entry against one wallet, with the amounts booked in every currency and
    the legacy fields older rows still carry. */
module Ledger {
  import opened Wrappers
  import opened Shared

  /** The ledger's transaction-type tag. The ten named tags are the ones the
      translator distinguishes; `Admin` stands for a tag among the
      administrative types (escrow, fees, cold-storage moves and the like)
      and `Other` for any remaining tag. */
  datatype LedgerTransactionType =
    | IntraLedger
    | WalletIdTradeIntraAccount
    | OnchainIntraLedger
    | OnChainTradeIntraAccount
    | OnchainPayment
    | OnchainReceipt
    | LnIntraLedger
    | LnTradeIntraAccount
    | Payment
    | Invoice
    | Admin(adminName: string)
    | Other(name: string)

  predicate IsAdmin(t: LedgerTransactionType) {
    t.Admin?
  }

  /** One ledger row. Optional fields are the ones older rows may lack;
      `usd` and `feeUsd` are the legacy fields of admin rows, in dollars. */
  datatype LedgerTransaction = LedgerTransaction(
    id: string,
    journalId: string,
    walletId: Option<WalletId>,
    txType: LedgerTransactionType,
    debit: int,
    credit: int,
    currency: WalletCurrency,
    satsAmount: Option<int>,
    satsFee: Option<int>,
    centsAmount: Option<int>,
    centsFee: Option<int>,
    displayAmount: Option<int>,
    displayFee: Option<int>,
    displayCurrency: Option<DisplayCurrency>,
    lnMemo: Option<string>,
    memoFromPayer: Option<string>,
    pendingConfirmation: bool,
    timestamp: int,
    recipientWalletId: Option<WalletId>,
    username: Option<Username>,
    pubkey: Option<string>,
    paymentHash: Option<string>,
    txHash: Option<OnChainTxHash>,
    address: Option<OnChainAddress>,
    usd: Option<real>,
    feeUsd: Option<real>,
    fee: Option<int>)
}

=== FILE: payment_flow.dfy ===
/** What the on-chain send orchestration consumes and changes: the priced
    payment flow the builder produces, and the sender's side of the ledger.
    The builder, the ledger facade and the ledger service are not part of
    this model; the flow is taken as given, and the ledger is reduced to the
    sender wallet's balance and the journal entries written against it. */
module PaymentFlows {
  import opened Wrappers
  import opened Shared
  import opened Errors

  /** Identifies a wallet without loading it. */
  datatype WalletDescriptor = WalletDescriptor(id: WalletId, currency: WalletCurrency, accountId: AccountId)

  datatype RecipientDetails = RecipientDetails(
    walletDescriptor: Option<WalletDescriptor>,
    recipientUserId: Option<string>,
    recipientUsername: Option<Username>)

  datatype BankFee = BankFee(btc: nat, usd: nat)

  /** A fully priced payment: both currency representations of the amount
      and of the protocol-and-bank fee. `bankFees` is the flow's own fallible
      accessor. */
  datatype PaymentFlow = PaymentFlow(
    senderWalletDescriptor: WalletDescriptor,
    recipientDetails: RecipientDetails,
    address: OnChainAddress,
    btcPaymentAmount: nat,
    usdPaymentAmount: nat,
    btcProtocolAndBankFee: nat,
    usdProtocolAndBankFee: nat,
    bankFees: Result<BankFee, AppError>)

  /** Amount plus fee, per currency: what an on-chain send debits. */
  function BtcTotal(flow: PaymentFlow): nat {
    flow.btcPaymentAmount + flow.btcProtocolAndBankFee
  }

  function UsdTotal(flow: PaymentFlow): nat {
    flow.usdPaymentAmount + flow.usdProtocolAndBankFee
  }

  /** Amount plus fee in the sender wallet's own currency. */
  function SenderTotal(flow: PaymentFlow): nat {
    if flow.senderWalletDescriptor.currency == Btc then BtcTotal(flow) else UsdTotal(flow)
  }

  /** The payment amount alone in the sender wallet's own currency. */
  function SenderAmount(flow: PaymentFlow): nat {
    if flow.senderWalletDescriptor.currency == Btc then flow.btcPaymentAmount else flow.usdPaymentAmount
  }

  /** The flow's balance check: the sender's balance covers amount and fee. */
  predicate CheckBalanceForSend(flow: PaymentFlow, balance: int) {
    balance >= SenderTotal(flow)
  }

  // ---------------------------------------------------------------------
  // The sender's ledger

  datatype JournalKind = IntraledgerSend | TradeIntraAccountSend | OnChainSend

  /** One journal entry debiting the sender. `debited` is the amount taken
      from the sender's balance, in the sender's currency; `txHash` is None
      while the entry still carries its placeholder hash. */
  datatype Journal = Journal(
    kind: JournalKind,
    btcDebit: nat,
    usdDebit: nat,
    debited: nat,
    txHash: Option<OnChainTxHash>,
    reverted: bool)

  /** The sender wallet's balance (in its own currency) and the journal
      entries written against it; a journal's id is its index. */
  datatype LedgerState = LedgerState(balance: int, journals: seq<Journal>)

  /** Commits one journal entry: the balance goes down by its debit. */
  function Record(ledger: LedgerState, j: Journal): (r: LedgerState)
    ensures r.balance + j.debited == ledger.balance
    ensures |r.journals| == |ledger.journals| + 1
    ensures r.journals[..|ledger.journals|] == ledger.journals && r.journals[|ledger.journals|] == j
  {
    LedgerState(ledger.balance - j.debited, ledger.journals + [j])
  }

  /** The compensating reversal of a journal entry: its debit is given back. */
  function RevertJournal(ledger: LedgerState, journalId: nat): (r: LedgerState)
    requires journalId < |ledger.journals|
    ensures r.balance == ledger.balance + ledger.journals[journalId].debited
    ensures |r.journals| == |ledger.journals|
    ensures r.journals[journalId] == ledger.journals[journalId].(reverted := true)
    ensures forall k | 0 <= k < |ledger.journals| && k != journalId :: r.journals[k] == ledger.journals[k]
  {
    var j := ledger.journals[journalId];
    LedgerState(ledger.balance + j.debited, ledger.journals[journalId := j.(reverted := true)])
  }

  /** Replaces a journal entry's placeholder hash with the broadcast hash. */
  function SetOnChainTxSendHash(ledger: LedgerState, journalId: nat, txHash: OnChainTxHash): (r: LedgerState)
    requires journalId < |ledger.journals|
    ensures r.balance == ledger.balance && |r.journals| == |ledger.journals|
    ensures r.journals[journalId] == ledger.journals[journalId].(txHash := Some(txHash))
    ensures forall k | 0 <= k < |ledger.journals| && k != journalId :: r.journals[k] == ledger.journals[k]
  {
    ledger.(journals := ledger.journals[journalId := ledger.journals[journalId].(txHash := Some(txHash))])
  }

  /** Recording an entry and reverting it leaves the balance where it was,
      keeps every earlier entry, and leaves the entry on record as reverted. */
  lemma RecordThenRevertRestoresBalance(ledger: LedgerState, j: Journal)
    ensures RevertJournal(Record(ledger, j), |ledger.journals|)
            == LedgerState(ledger.balance, ledger.journals + [j.(reverted := true)])
  {
    var after := RevertJournal(Record(ledger, j), |ledger.journals|);
    assert after.journals == ledger.journals + [j.(reverted := true)];
  }
}

=== FILE: send_on_chain.dfy ===
/** Sending from a wallet to an on-chain address. The address either belongs
    to another wallet of this system (the payment is then settled inside the
    ledger) or is external (the ledger is debited and the payment broadcast
    on chain). Every collaborator -- repositories, price and limit services,
    the lock, the payment flow builder, the on-chain wallet -- is an oracle
    field whose value is what that collaborator returns; the state is the
    sender's side of the ledger. A run reports its outcome, the final ledger
    and the externally visible effects in order. */
module SendOnChain {
  import opened Wrappers
  import opened Shared
  import opened Errors
  import opened PaymentFlows
  import W = WalletTypes

  datatype PaymentSendStatus = Success | Failure | Pending | AlreadyPaid

  /** Which limit an account's volume is checked against. */
  datatype LimitCategory = WithdrawalLimit | IntraledgerLimit | TradeIntraAccountLimit

  datatype Effect =
    | InputValidated(validatedAmount: int)
    | LimitChecked(category: LimitCategory, accountId: AccountId, usdAmount: nat)
    | ChainBroadcast(address: OnChainAddress, sats: nat)
    | MinerFeeLookedUp(txHash: OnChainTxHash)
    | RecipientNotified(walletId: WalletId, amount: nat, currency: WalletCurrency)

  datatype Run = Run(outcome: Result<PaymentSendStatus, AppError>, ledger: LedgerState, effects: seq<Effect>)

  /** The wallet lock: whether it could be taken, and whether it had expired
      by the time the balance had been checked. */
  datatype LockOracle = LockOracle(acquireError: Option<AppError>, aborted: bool)

  /** A limit service: an error when the account may not move that many
      cents under that category. */
  type LimitCheck = (LimitCategory, AccountId, nat) -> Option<AppError>

  predicate HasLimitEffect(effects: seq<Effect>) {
    exists e :: e in effects && e.LimitChecked?
  }

  predicate HasBroadcast(effects: seq<Effect>) {
    exists e :: e in effects && e.ChainBroadcast?
  }

  // ---------------------------------------------------------------------
  // Intraledger settlement

  datatype IntraledgerOracles = IntraledgerOracles(
    paymentFlow: Result<PaymentFlow, AppError>,
    walletsById: WalletId -> Result<WalletDescriptor, AppError>,
    recipientAccount: Option<AppError>,
    priceRatioForLimits: Option<AppError>,
    limitCheck: LimitCheck,
    lock: LockOracle,
    balanceRead: Option<AppError>,
    addressForFlow: Option<AppError>,
    walletPriceRatio: Option<AppError>,
    senderDisplayPriceRatio: Option<AppError>,
    recipientDisplayPriceRatio: Option<AppError>,
    recordIntraledger: Option<AppError>,
    recipientUser: Option<AppError>,
    recipientDisplayAmount: Option<AppError>)

  /** A flow built for an intraledger payment names its recipient wallet and
      a non-empty recipient user id. */
  predicate HasRecipient(flow: PaymentFlow) {
    flow.recipientDetails.walletDescriptor.Some? && Truthy(flow.recipientDetails.recipientUserId)
  }

  /** Trades between two wallets of one account have their own limit. */
  function IntraledgerCategory(sender: WalletDescriptor, recipient: WalletDescriptor): (c: LimitCategory)
    ensures c != WithdrawalLimit
    ensures c == TradeIntraAccountLimit <==> sender.accountId == recipient.accountId
  {
    if sender.accountId == recipient.accountId then TradeIntraAccountLimit else IntraledgerLimit
  }

  /** The intraledger journal: the sender is debited the amount only, in its
      own currency. */
  function IntraledgerJournal(flow: PaymentFlow, sender: WalletDescriptor, recipient: WalletDescriptor): (j: Journal)
    ensures j.debited == SenderAmount(flow) && j.btcDebit == flow.btcPaymentAmount && j.usdDebit == flow.usdPaymentAmount
    ensures j.kind == TradeIntraAccountSend <==> IntraledgerCategory(sender, recipient) == TradeIntraAccountLimit
    ensures j.kind != OnChainSend && !j.reverted
  {
    Journal(
      if sender.accountId == recipient.accountId then TradeIntraAccountSend else IntraledgerSend,
      flow.btcPaymentAmount, flow.usdPaymentAmount, SenderAmount(flow), None, false)
  }

  /** What the recipient is told it received: the amount in its wallet's currency. */
  function RecipientNotice(flow: PaymentFlow, recipient: WalletDescriptor): Effect
    requires HasRecipient(flow)
  {
    var currency := flow.recipientDetails.walletDescriptor.value.currency;
    RecipientNotified(recipient.id, if currency == Usd then flow.usdPaymentAmount else flow.btcPaymentAmount, currency)
  }

  /** The steps taken while the sender's wallet is locked. */
  function IntraledgerLockedSection(
    o: IntraledgerOracles, flow: PaymentFlow, sender: WalletDescriptor, recipient: WalletDescriptor, ledger: LedgerState)
    : (r: Run)
    requires HasRecipient(flow)
    ensures r.ledger == ledger || r.ledger == Record(ledger, IntraledgerJournal(flow, sender, recipient))
    ensures r.ledger != ledger ==>
      o.balanceRead.None? && CheckBalanceForSend(flow, ledger.balance) && !o.lock.aborted
    ensures r.ledger != ledger ==> r.ledger.balance >= 0
    ensures (o.balanceRead.None? && !CheckBalanceForSend(flow, ledger.balance)) ==>
      r == Run(Err(InsufficientBalanceError), ledger, [])
    ensures (o.balanceRead.None? && CheckBalanceForSend(flow, ledger.balance) && o.lock.aborted) ==>
      r == Run(Err(ResourceExpiredLockServiceError), ledger, [])
    ensures r.outcome.Ok? <==>
      (&& o.balanceRead.None? && CheckBalanceForSend(flow, ledger.balance) && !o.lock.aborted
       && o.addressForFlow.None? && o.walletPriceRatio.None? && o.senderDisplayPriceRatio.None?
       && o.recipientDisplayPriceRatio.None? && o.recordIntraledger.None?
       && o.recipientUser.None? && o.recipientDisplayAmount.None?)
    ensures r.outcome.Ok? ==> r.outcome.value == Success && r.effects == [RecipientNotice(flow, recipient)]
    ensures r.outcome.Err? ==> r.effects == []
  {
    if o.balanceRead.Some? then Run(Err(o.balanceRead.value), ledger, [])
    else if !CheckBalanceForSend(flow, ledger.balance) then Run(Err(InsufficientBalanceError), ledger, [])
    else if o.lock.aborted then Run(Err(ResourceExpiredLockServiceError), ledger, [])
    else if o.addressForFlow.Some? then Run(Err(o.addressForFlow.value), ledger, [])
    else if o.walletPriceRatio.Some? then Run(Err(o.walletPriceRatio.value), ledger, [])
    else if o.senderDisplayPriceRatio.Some? then Run(Err(o.senderDisplayPriceRatio.value), ledger, [])
    else if o.recipientDisplayPriceRatio.Some? then Run(Err(o.recipientDisplayPriceRatio.value), ledger, [])
    else if o.recordIntraledger.Some? then Run(Err(o.recordIntraledger.value), ledger, [])
    else
      var committed := Record(ledger, IntraledgerJournal(flow, sender, recipient));
      if o.recipientUser.Some? then Run(Err(o.recipientUser.value), committed, [])
      else if o.recipientDisplayAmount.Some? then Run(Err(o.recipientDisplayAmount.value), committed, [])
      else Run(Ok(Success), committed, [RecipientNotice(flow, recipient)])
  }

  /** Everything before the lock succeeded, and the lock was taken. */
  predicate IntraledgerPassesPreLock(o: IntraledgerOracles, sender: WalletDescriptor) {
    && o.paymentFlow.Ok?
    && HasRecipient(o.paymentFlow.value)
    && var flow := o.paymentFlow.value;
       var found := o.walletsById(flow.recipientDetails.walletDescriptor.value.id);
       && found.Ok?
       && o.recipientAccount.None?
       && o.priceRatioForLimits.None?
       && o.limitCheck(IntraledgerCategory(sender, found.value), sender.accountId, flow.usdPaymentAmount).None?
       && o.lock.acquireError.None?
  }

  /** The conditions under which the intraledger path may change the ledger. */
  predicate IntraledgerMayCommit(o: IntraledgerOracles, sender: WalletDescriptor, ledger: LedgerState) {
    && IntraledgerPassesPreLock(o, sender)
    && o.balanceRead.None?
    && CheckBalanceForSend(o.paymentFlow.value, ledger.balance)
    && !o.lock.aborted
  }

  method ExecutePaymentViaIntraledger(o: IntraledgerOracles, senderWallet: WalletDescriptor, ledger: LedgerState)
    returns (run: Run)
    ensures (o.paymentFlow.Ok? && !HasRecipient(o.paymentFlow.value)) ==>
      run == Run(Err(InvalidLightningPaymentFlowBuilderStateError), ledger, [])
    ensures run.ledger != ledger ==> IntraledgerMayCommit(o, senderWallet, ledger)
    ensures run.ledger != ledger ==> run.ledger.balance >= 0
    ensures run.ledger != ledger ==>
      o.paymentFlow.Ok? && run.ledger.balance == ledger.balance - SenderAmount(o.paymentFlow.value)
    ensures HasLimitEffect(run.effects) ==> o.paymentFlow.Ok? && HasRecipient(o.paymentFlow.value)
    ensures forall e | e in run.effects && e.LimitChecked? ::
      var flow := o.paymentFlow.value;
      var found := o.walletsById(flow.recipientDetails.walletDescriptor.value.id);
      && found.Ok?
      && e == LimitChecked(IntraledgerCategory(senderWallet, found.value), senderWallet.accountId, flow.usdPaymentAmount)
    ensures !HasBroadcast(run.effects)
    ensures forall e | e in run.effects :: !e.InputValidated?
    ensures run.outcome.Ok? ==> IntraledgerMayCommit(o, senderWallet, ledger) && run.ledger != ledger
  {
    if o.paymentFlow.Err? {
      return Run(Err(o.paymentFlow.error), ledger, []);
    }
    var flow := o.paymentFlow.value;
    if !HasRecipient(flow) {
      return Run(Err(InvalidLightningPaymentFlowBuilderStateError), ledger, []);
    }
    var found := o.walletsById(flow.recipientDetails.walletDescriptor.value.id);
    if found.Err? {
      return Run(Err(found.error), ledger, []);
    }
    var recipientWallet := found.value;
    if o.recipientAccount.Some? {
      return Run(Err(o.recipientAccount.value), ledger, []);
    }
    if o.priceRatioForLimits.Some? {
      return Run(Err(o.priceRatioForLimits.value), ledger, []);
    }
    var category := IntraledgerCategory(senderWallet, recipientWallet);
    var checked := [LimitChecked(category, senderWallet.accountId, flow.usdPaymentAmount)];
    var limit := o.limitCheck(category, senderWallet.accountId, flow.usdPaymentAmount);
    if limit.Some? {
      return Run(Err(limit.value), ledger, checked);
    }
    if o.lock.acquireError.Some? {
      return Run(Err(o.lock.acquireError.value), ledger, checked);
    }
    var locked := IntraledgerLockedSection(o, flow, senderWallet, recipientWallet, ledger);
    run := Run(locked.outcome, locked.ledger, checked + locked.effects);
  }

  // ---------------------------------------------------------------------
  // Settlement on chain

  datatype ProposedAmounts = ProposedAmounts(btc: nat, usd: nat)

  /** `flowForBalance` and `flowForDebit` are the second and third fee
      estimates taken inside the lock; `estimatedFlow` is the first, taken
      before it. */
  datatype OnChainOracles = OnChainOracles(
    senderWalletDescriptor: Result<WalletDescriptor, AppError>,
    onChainService: Option<AppError>,
    proposedAmounts: Result<ProposedAmounts, AppError>,
    priceRatioForLimits: Option<AppError>,
    limitCheck: LimitCheck,
    estimatedFlow: Result<PaymentFlow, AppError>,
    onChainBalanceRead: Option<AppError>,
    onChainBalanceCheck: Option<AppError>,
    lock: LockOracle,
    flowForBalance: Result<PaymentFlow, AppError>,
    balanceRead: Option<AppError>,
    flowForDebit: Result<PaymentFlow, AppError>,
    displayPriceRatio: Option<AppError>,
    recordSend: Option<AppError>,
    payToAddress: Result<OnChainTxHash, AppError>,
    revert: Option<AppError>,
    setTxHash: Option<AppError>,
    lookupFee: Result<nat, AppError>)

  /** The on-chain journal: the sender is debited amount plus fee. */
  function OnChainJournal(flow: PaymentFlow): (j: Journal)
    ensures j.btcDebit == flow.btcPaymentAmount + flow.btcProtocolAndBankFee
    ensures j.usdDebit == flow.usdPaymentAmount + flow.usdProtocolAndBankFee
    ensures j.debited == SenderTotal(flow) && j.kind == OnChainSend && !j.reverted && j.txHash.None?
  {
    Journal(OnChainSend, BtcTotal(flow), UsdTotal(flow), SenderTotal(flow), None, false)
  }

  /** The balance check admits a flow exactly when recording its on-chain
      journal leaves the balance non-negative. */
  lemma BalanceCheckIsNoOverdraft(flow: PaymentFlow, ledger: LedgerState)
    ensures CheckBalanceForSend(flow, ledger.balance) <==> Record(ledger, OnChainJournal(flow)).balance >= 0
  {
  }

  /** Broadcast failures after which the debit is reverted. */
  predicate TriggersRevert(e: AppError) {
    e == InsufficientOnChainFundsError || e == CPFPAncestorLimitReachedError
  }

  /** The balance check, the lock check and the flow-dependent steps before
      the ledger is written all succeeded, for the flow `debitFlow` that is
      debited. */
  predicate ReachesBroadcast(o: OnChainOracles, debitFlow: Result<PaymentFlow, AppError>, ledger: LedgerState) {
    && o.flowForBalance.Ok?
    && o.balanceRead.None?
    && CheckBalanceForSend(o.flowForBalance.value, ledger.balance)
    && !o.lock.aborted
    && debitFlow.Ok?
    && debitFlow.value.bankFees.Ok?
    && o.displayPriceRatio.None?
    && o.recordSend.None?
  }

  /** The steps taken while the sender's wallet is locked, debiting the
      flow `debitFlow`. */
  function LockedOnChainSend(o: OnChainOracles, debitFlow: Result<PaymentFlow, AppError>, ledger: LedgerState): (r: Run)
    ensures !ReachesBroadcast(o, debitFlow, ledger) ==> r.ledger == ledger && r.effects == [] && r.outcome.Err?
    ensures ReachesBroadcast(o, debitFlow, ledger) ==>
      var flow := debitFlow.value;
      var committed := Record(ledger, OnChainJournal(flow));
      && |r.ledger.journals| == |ledger.journals| + 1
      && r.ledger.journals[..|ledger.journals|] == ledger.journals
      && (var j := r.ledger.journals[|ledger.journals|];
          && j.kind == OnChainSend && j.debited == SenderTotal(flow)
          && j.btcDebit == flow.btcPaymentAmount + flow.btcProtocolAndBankFee
          && j.usdDebit == flow.usdPaymentAmount + flow.usdProtocolAndBankFee)
      && |r.effects| >= 1 && r.effects[0] == ChainBroadcast(flow.address, flow.btcPaymentAmount)
      && (o.payToAddress.Err? && TriggersRevert(o.payToAddress.error) && o.revert.None? ==>
            r.outcome == Err(o.payToAddress.error) && r.ledger.balance == ledger.balance
            && r.ledger.journals[|ledger.journals|].reverted)
      && (o.payToAddress.Err? && TriggersRevert(o.payToAddress.error) && o.revert.Some? ==>
            r.outcome == Err(o.revert.value) && r.ledger == committed)
      && (o.payToAddress.Err? && !TriggersRevert(o.payToAddress.error) ==>
            r.outcome == Err(o.payToAddress.error) && r.ledger == committed)
      && (o.payToAddress.Ok? ==>
            r.ledger.balance == ledger.balance - SenderTotal(flow)
            && (o.setTxHash.None? ==> r.ledger.journals[|ledger.journals|].txHash == Some(o.payToAddress.value)))
    ensures r.ledger.balance == ledger.balance
      || (debitFlow.Ok? && r.ledger.balance == ledger.balance - SenderTotal(debitFlow.value))
    ensures r.outcome.Ok? <==> ReachesBroadcast(o, debitFlow, ledger) && o.payToAddress.Ok? && o.setTxHash.None?
    ensures r.outcome.Ok? ==> r.outcome.value == Success
    ensures forall e | e in r.effects :: e.ChainBroadcast? || e.MinerFeeLookedUp?
  {
    match o.flowForBalance
    case Err(e) => Run(Err(e), ledger, [])
    case Ok(checked) =>
      if o.balanceRead.Some? then Run(Err(o.balanceRead.value), ledger, [])
      else if !CheckBalanceForSend(checked, ledger.balance) then Run(Err(InsufficientBalanceError), ledger, [])
      else if o.lock.aborted then Run(Err(ResourceExpiredLockServiceError), ledger, [])
      else match debitFlow
      case Err(e) => Run(Err(e), ledger, [])
      case Ok(flow) =>
        if flow.bankFees.Err? then Run(Err(flow.bankFees.error), ledger, [])
        else if o.displayPriceRatio.Some? then Run(Err(o.displayPriceRatio.value), ledger, [])
        else if o.recordSend.Some? then Run(Err(o.recordSend.value), ledger, [])
        else
          var journalId := |ledger.journals|;
          var committed := Record(ledger, OnChainJournal(flow));
          var broadcast := [ChainBroadcast(flow.address, flow.btcPaymentAmount)];
          match o.payToAddress
          case Err(e) =>
            if TriggersRevert(e) then
              if o.revert.Some? then Run(Err(o.revert.value), committed, broadcast)
              else Run(Err(e), RevertJournal(committed, journalId), broadcast)
            else Run(Err(e), committed, broadcast)
          case Ok(txHash) =>
            if o.setTxHash.Some? then Run(Err(o.setTxHash.value), committed, broadcast)
            else Run(Ok(Success), SetOnChainTxSendHash(committed, journalId, txHash), broadcast + [MinerFeeLookedUp(txHash)])
  }

  /** The locked section as the code is written: the balance is checked
      against the second fee estimate but the third one is debited. The
      balance stays non-negative only when the third total is no larger than
      the second; with equal estimates it is the corrected section. */
  function OnChainLockedSectionAsWritten(o: OnChainOracles, ledger: LedgerState): (r: Run)
    ensures r.ledger != ledger ==>
      && o.flowForBalance.Ok? && o.flowForDebit.Ok? && !o.lock.aborted
      && CheckBalanceForSend(o.flowForBalance.value, ledger.balance)
      && |r.ledger.journals| == |ledger.journals| + 1
      && r.ledger.journals[|ledger.journals|].debited == SenderTotal(o.flowForDebit.value)
    ensures r.ledger.balance == ledger.balance
      || (o.flowForDebit.Ok? && r.ledger.balance == ledger.balance - SenderTotal(o.flowForDebit.value))
    ensures (&& r.ledger != ledger && o.flowForBalance.Ok? && o.flowForDebit.Ok?
             && SenderTotal(o.flowForDebit.value) <= SenderTotal(o.flowForBalance.value)) ==>
      r.ledger.balance >= 0
    ensures o.flowForDebit == o.flowForBalance ==> r == OnChainLockedSection(o, ledger)
  {
    LockedOnChainSend(o, o.flowForDebit, ledger)
  }

  /** The locked section debiting the flow whose total passed the balance
      check. */
  function OnChainLockedSection(o: OnChainOracles, ledger: LedgerState): (r: Run)
    ensures r.ledger != ledger ==>
      && o.flowForBalance.Ok? && CheckBalanceForSend(o.flowForBalance.value, ledger.balance) && !o.lock.aborted
      && |r.ledger.journals| == |ledger.journals| + 1
      && r.ledger.journals[|ledger.journals|].debited == SenderTotal(o.flowForBalance.value)
    ensures r.ledger.balance == ledger.balance
      || (o.flowForBalance.Ok? && r.ledger.balance == ledger.balance - SenderTotal(o.flowForBalance.value))
    ensures r.ledger != ledger ==> r.ledger.balance >= 0
  {
    LockedOnChainSend(o, o.flowForBalance, ledger)
  }

  /** When the fee estimate rises between the balance check and the debit,
      the written code debits more than the checked balance covers, provided
      `recordSend` accepts the debit (`o.recordSend.None?`, part of
      `ReachesBroadcast`): the ledger's own balance rule is not modelled. */
  lemma AsWrittenDebitsUncheckedFlow(o: OnChainOracles, ledger: LedgerState)
    requires ReachesBroadcast(o, o.flowForDebit, ledger)
    requires o.payToAddress.Ok?
    requires SenderTotal(o.flowForDebit.value) > ledger.balance
    ensures OnChainLockedSectionAsWritten(o, ledger).ledger.balance < 0
  {
  }

  /** A concrete run: a balance of 1000 sats, a fee of 100 at the balance
      check and 110 at the debit, with `recordSend` accepting the debit. */
  lemma AsWrittenOverdrawsExample()
    ensures exists o: OnChainOracles, ledger: LedgerState ::
      ledger.balance >= 0 && OnChainLockedSectionAsWritten(o, ledger).ledger.balance == -10
  {
    var sender := WalletDescriptor("sender-wallet", Btc, "sender-account");
    var none := RecipientDetails(None, None, None);
    var checked := PaymentFlow(sender, none, "bc1q-recipient", 900, 0, 100, 0, Ok(BankFee(0, 0)));
    var debited := checked.(btcProtocolAndBankFee := 110);
    var noLimit: LimitCheck := (c, a, n) => None;
    var o := OnChainOracles(
      Ok(sender), None, Ok(ProposedAmounts(900, 0)), None, noLimit, Ok(checked), None, None,
      LockOracle(None, false), Ok(checked), None, Ok(debited), None, None,
      Ok("tx-hash"), None, None, Ok(0));
    var ledger := LedgerState(1000, []);
    assert OnChainLockedSectionAsWritten(o, ledger).ledger.balance == -10;
  }

  /** The final miner-fee lookup cannot change a run, whichever flow is
      debited. */
  lemma MinerFeeLookupIsNonFatal(
    o: OnChainOracles, debitFlow: Result<PaymentFlow, AppError>, ledger: LedgerState, lookup: Result<nat, AppError>)
    ensures LockedOnChainSend(o.(lookupFee := lookup), debitFlow, ledger) == LockedOnChainSend(o, debitFlow, ledger)
    ensures OnChainLockedSectionAsWritten(o.(lookupFee := lookup), ledger) == OnChainLockedSectionAsWritten(o, ledger)
    ensures OnChainLockedSection(o.(lookupFee := lookup), ledger) == OnChainLockedSection(o, ledger)
  {
  }

  /** Everything before the lock succeeded, and the lock was taken. */
  predicate OnChainPassesPreLock(o: OnChainOracles) {
    && o.senderWalletDescriptor.Ok?
    && o.onChainService.None?
    && o.proposedAmounts.Ok?
    && o.priceRatioForLimits.None?
    && o.limitCheck(WithdrawalLimit, o.senderWalletDescriptor.value.accountId, o.proposedAmounts.value.usd).None?
    && o.estimatedFlow.Ok?
    && o.onChainBalanceRead.None?
    && o.onChainBalanceCheck.None?
    && o.lock.acquireError.None?
  }

  /** The steps before the lock: the limit-check effect when they all
      succeed, otherwise the failed run, which leaves the ledger alone. */
  function OnChainPreLock(o: OnChainOracles, ledger: LedgerState): (r: Result<seq<Effect>, Run>)
    ensures r.Ok? <==> OnChainPassesPreLock(o)
    ensures r.Ok? ==>
      r.value == [LimitChecked(WithdrawalLimit, o.senderWalletDescriptor.value.accountId, o.proposedAmounts.value.usd)]
    ensures r.Err? ==> r.error.outcome.Err? && r.error.ledger == ledger
    ensures r.Err? ==> forall e | e in r.error.effects ::
      && o.senderWalletDescriptor.Ok? && o.proposedAmounts.Ok?
      && e == LimitChecked(WithdrawalLimit, o.senderWalletDescriptor.value.accountId, o.proposedAmounts.value.usd)
  {
    match o.senderWalletDescriptor
    case Err(e) => Err(Run(Err(e), ledger, []))
    case Ok(sender) =>
      if o.onChainService.Some? then Err(Run(Err(o.onChainService.value), ledger, []))
      else match o.proposedAmounts
      case Err(e) => Err(Run(Err(e), ledger, []))
      case Ok(proposed) =>
        if o.priceRatioForLimits.Some? then Err(Run(Err(o.priceRatioForLimits.value), ledger, []))
        else
          var checked := [LimitChecked(WithdrawalLimit, sender.accountId, proposed.usd)];
          var limit := o.limitCheck(WithdrawalLimit, sender.accountId, proposed.usd);
          if limit.Some? then Err(Run(Err(limit.value), ledger, checked))
          else if o.estimatedFlow.Err? then Err(Run(Err(o.estimatedFlow.error), ledger, checked))
          else if o.onChainBalanceRead.Some? then Err(Run(Err(o.onChainBalanceRead.value), ledger, checked))
          else if o.onChainBalanceCheck.Some? then Err(Run(Err(o.onChainBalanceCheck.value), ledger, checked))
          else if o.lock.acquireError.Some? then Err(Run(Err(o.lock.acquireError.value), ledger, checked))
          else Ok(checked)
  }

  /** The on-chain payment as the code is written: it debits the third fee
      estimate after checking the balance against the second. */
  method ExecutePaymentViaOnChain(o: OnChainOracles, ledger: LedgerState) returns (run: Run)
    ensures forall e | e in run.effects && e.LimitChecked? ::
      && o.senderWalletDescriptor.Ok? && o.proposedAmounts.Ok?
      && e == LimitChecked(WithdrawalLimit, o.senderWalletDescriptor.value.accountId, o.proposedAmounts.value.usd)
    ensures run.ledger != ledger ==>
      && OnChainPassesPreLock(o)
      && o.flowForBalance.Ok? && CheckBalanceForSend(o.flowForBalance.value, ledger.balance)
      && !o.lock.aborted && o.flowForDebit.Ok?
    ensures run.ledger.balance == ledger.balance
      || (o.flowForDebit.Ok? && run.ledger.balance == ledger.balance - SenderTotal(o.flowForDebit.value))
    ensures (&& run.ledger != ledger && o.flowForBalance.Ok? && o.flowForDebit.Ok?
             && SenderTotal(o.flowForDebit.value) <= SenderTotal(o.flowForBalance.value)) ==>
      run.ledger.balance >= 0
    ensures forall e | e in run.effects :: !e.InputValidated? && !e.RecipientNotified?
    ensures HasBroadcast(run.effects) ==> OnChainPassesPreLock(o) && ReachesBroadcast(o, o.flowForDebit, ledger)
    ensures run.outcome.Ok? <==>
      OnChainPassesPreLock(o) && ReachesBroadcast(o, o.flowForDebit, ledger)
      && o.payToAddress.Ok? && o.setTxHash.None?
  {
    var pre := OnChainPreLock(o, ledger);
    if pre.Err? {
      return pre.error;
    }
    var locked := OnChainLockedSectionAsWritten(o, ledger);
    run := Run(locked.outcome, locked.ledger, pre.value + locked.effects);
  }

  /** The on-chain payment debiting the flow whose total passed the balance
      check: it never overdraws the sender. */
  method ExecutePaymentViaOnChainCorrected(o: OnChainOracles, ledger: LedgerState) returns (run: Run)
    ensures forall e | e in run.effects && e.LimitChecked? ::
      && o.senderWalletDescriptor.Ok? && o.proposedAmounts.Ok?
      && e == LimitChecked(WithdrawalLimit, o.senderWalletDescriptor.value.accountId, o.proposedAmounts.value.usd)
    ensures run.ledger != ledger ==>
      && OnChainPassesPreLock(o)
      && o.flowForBalance.Ok? && CheckBalanceForSend(o.flowForBalance.value, ledger.balance)
      && !o.lock.aborted
    ensures run.ledger.balance == ledger.balance
      || (o.flowForBalance.Ok? && run.ledger.balance == ledger.balance - SenderTotal(o.flowForBalance.value))
    ensures run.ledger != ledger ==> run.ledger.balance >= 0
    ensures forall e | e in run.effects :: !e.InputValidated? && !e.RecipientNotified?
    ensures HasBroadcast(run.effects) ==> OnChainPassesPreLock(o) && ReachesBroadcast(o, o.flowForBalance, ledger)
    ensures run.outcome.Ok? <==>
      OnChainPassesPreLock(o) && ReachesBroadcast(o, o.flowForBalance, ledger)
      && o.payToAddress.Ok? && o.setTxHash.None?
  {
    var pre := OnChainPreLock(o, ledger);
    if pre.Err? {
      return pre.error;
    }
    var locked := OnChainLockedSection(o, ledger);
    run := Run(locked.outcome, locked.ledger, pre.value + locked.effects);
  }

  // ---------------------------------------------------------------------
  // Entry point

  /** The sender's account is passed in already loaded; it is modelled by its id. */
  datatype PayOnChainRequest = PayOnChainRequest(
    senderAccount: AccountId,
    senderWalletId: WalletId,
    amount: int,
    amountCurrency: Option<WalletCurrency>,
    address: string,
    targetConfirmations: int,
    memo: Option<string>,
    sendAll: bool)

  datatype PayOracles = PayOracles(
    walletBalanceRead: Option<AppError>,
    inputChecks: W.PaymentInputChecks,
    checkAddress: string -> Result<OnChainAddress, AppError>,
    checkTargetConfirmations: int -> Option<AppError>,
    walletByAddress: OnChainAddress -> Result<W.Wallet, AppError>,
    recipientAccount: Option<AppError>,
    intraledger: IntraledgerOracles,
    onChain: OnChainOracles)

  /** With `sendAll` the amount sent is the whole balance of the sender. */
  function AmountToSend(req: PayOnChainRequest, ledger: LedgerState): int {
    if req.sendAll then ledger.balance else req.amount
  }

  function ValidationArgs(req: PayOnChainRequest, ledger: LedgerState): W.ValidatePaymentInputArgs {
    W.ValidatePaymentInputArgs(AmountToSend(req, ledger), req.amountCurrency, req.senderWalletId, req.senderAccount, None)
  }

  function DescriptorOf(w: W.Wallet): WalletDescriptor {
    WalletDescriptor(w.id, w.currency, w.accountId)
  }

  /** An address that checks out and that no wallet of this system owns. */
  predicate IsExternalAddress(req: PayOnChainRequest, o: PayOracles) {
    && o.checkAddress(req.address).Ok?
    && o.walletByAddress(o.checkAddress(req.address).value) == Err(CouldNotFindError)
  }

  /** An address that checks out and that a wallet of this system owns. */
  predicate IsIntraLedgerAddress(req: PayOnChainRequest, o: PayOracles) {
    o.checkAddress(req.address).Ok? && o.walletByAddress(o.checkAddress(req.address).value).Ok?
  }

  /** Every step before the recipient lookup succeeded. */
  predicate ReachesRecipientLookup(req: PayOnChainRequest, o: PayOracles, ledger: LedgerState) {
    && (req.sendAll ==> o.walletBalanceRead.None? && ledger.balance != 0)
    && W.ValidatePaymentInput(ValidationArgs(req, ledger), o.inputChecks).Ok?
    && o.checkAddress(req.address).Ok?
    && o.checkTargetConfirmations(req.targetConfirmations).None?
  }

  /** The sender's wallet, once the input has been validated. */
  function SenderOf(req: PayOnChainRequest, o: PayOracles, ledger: LedgerState): WalletDescriptor
    requires W.ValidatePaymentInput(ValidationArgs(req, ledger), o.inputChecks).Ok?
  {
    DescriptorOf(W.ValidatePaymentInput(ValidationArgs(req, ledger), o.inputChecks).value.senderWallet)
  }

  method PayOnChainByWalletId(req: PayOnChainRequest, o: PayOracles, ledger: LedgerState) returns (run: Run)
    ensures (req.sendAll && o.walletBalanceRead.Some?) ==> run == Run(Err(o.walletBalanceRead.value), ledger, [])
    ensures (req.sendAll && o.walletBalanceRead.None? && ledger.balance == 0) ==>
      run == Run(Err(InsufficientBalanceError), ledger, [])
    ensures forall e | e in run.effects && e.InputValidated? ::
      e.validatedAmount == AmountToSend(req, ledger) && (req.sendAll ==> e.validatedAmount != 0)
    ensures ReachesRecipientLookup(req, o, ledger) ==>
      var lookup := o.walletByAddress(o.checkAddress(req.address).value);
      lookup.Err? && lookup.error != CouldNotFindError ==>
        run.outcome == Err(lookup.error) && run.ledger == ledger && !HasBroadcast(run.effects)
    ensures (ReachesRecipientLookup(req, o, ledger) && IsExternalAddress(req, o)) ==>
      (run.outcome.Ok? <==>
         OnChainPassesPreLock(o.onChain) && ReachesBroadcast(o.onChain, o.onChain.flowForDebit, ledger)
         && o.onChain.payToAddress.Ok? && o.onChain.setTxHash.None?)
    ensures run.outcome.Ok? ==>
      && ReachesRecipientLookup(req, o, ledger)
      && (IsIntraLedgerAddress(req, o) || IsExternalAddress(req, o))
      && (IsIntraLedgerAddress(req, o) ==>
            o.recipientAccount.None? && IntraledgerMayCommit(o.intraledger, SenderOf(req, o, ledger), ledger))
    ensures forall e | e in run.effects && e.LimitChecked? ::
      (e.category == WithdrawalLimit <==> IsExternalAddress(req, o))
    ensures run.ledger != ledger ==>
      && ReachesRecipientLookup(req, o, ledger)
      && (IsIntraLedgerAddress(req, o) || IsExternalAddress(req, o))
      && (IsIntraLedgerAddress(req, o) ==>
            && o.recipientAccount.None?
            && IntraledgerMayCommit(o.intraledger, SenderOf(req, o, ledger), ledger)
            && run.ledger.balance == ledger.balance - SenderAmount(o.intraledger.paymentFlow.value)
            && run.ledger.balance >= 0)
      && (IsExternalAddress(req, o) ==>
            && OnChainPassesPreLock(o.onChain) && !o.onChain.lock.aborted
            && o.onChain.flowForBalance.Ok? && CheckBalanceForSend(o.onChain.flowForBalance.value, ledger.balance)
            && o.onChain.flowForDebit.Ok?
            && (run.ledger.balance == ledger.balance
                || run.ledger.balance == ledger.balance - SenderTotal(o.onChain.flowForDebit.value))
            && (SenderTotal(o.onChain.flowForDebit.value) <= SenderTotal(o.onChain.flowForBalance.value) ==>
                  run.ledger.balance >= 0))
    ensures HasBroadcast(run.effects) ==> IsExternalAddress(req, o)
  {
    if req.sendAll {
      if o.walletBalanceRead.Some? {
        return Run(Err(o.walletBalanceRead.value), ledger, []);
      }
      if ledger.balance == 0 {
        return Run(Err(InsufficientBalanceError), ledger, []);
      }
    }
    var args := ValidationArgs(req, ledger);
    var validated := [InputValidated(args.amount)];
    var validation := W.ValidatePaymentInput(args, o.inputChecks);
    if validation.Err? {
      return Run(Err(validation.error), ledger, validated);
    }
    var senderWallet := validation.value.senderWallet;
    var checkedAddress := o.checkAddress(req.address);
    if checkedAddress.Err? {
      return Run(Err(checkedAddress.error), ledger, validated);
    }
    var confirmations := o.checkTargetConfirmations(req.targetConfirmations);
    if confirmations.Some? {
      return Run(Err(confirmations.value), ledger, validated);
    }
    var recipientWallet := o.walletByAddress(checkedAddress.value);
    if recipientWallet.Err? && recipientWallet.error != CouldNotFindError {
      return Run(Err(recipientWallet.error), ledger, validated);
    }
    var sub: Run;
    if recipientWallet.Ok? {
      // The address is not external: settle inside the ledger.
      if o.recipientAccount.Some? {
        return Run(Err(o.recipientAccount.value), ledger, validated);
      }
      sub := ExecutePaymentViaIntraledger(o.intraledger, DescriptorOf(senderWallet), ledger);
    } else {
      sub := ExecutePaymentViaOnChain(o.onChain, ledger);
    }
    run := Run(sub.outcome, sub.ledger, validated + sub.effects);
  }
}

=== FILE: settlement_amounts.dfy ===
/** Settlement amounts of one ledger row: the signed amount in the row's
    currency, and its display-currency counterpart and display fee.

    The row records its amount and fee both in its own currency (sats or
    cents) and in the display currency. The booked credit or debit is one of
    amount, fee, amount + fee or amount - fee, and the display amount is the
    display-currency value of the same combination, with the same sign. */
module SettlementAmounts {
  import opened Wrappers
  import opened Shared
  import opened Ledger

  datatype SettlementAmounts = SettlementAmounts(
    settlementAmount: int,
    settlementDisplayAmount: DisplayAmount,
    settlementDisplayFee: DisplayAmount)

  /** The row's display currency; rows without one are in USD. */
  function DisplayCurrencyOf(txn: LedgerTransaction): DisplayCurrency {
    OrElse(txn.displayCurrency, DisplayCurrencyUsd)
  }

  /** The amount field matched against the booked value: sats for a BTC row,
      cents for a USD row. */
  function RowAmount(txn: LedgerTransaction): int {
    if txn.currency == Btc then OrZero(txn.satsAmount) else OrZero(txn.centsAmount)
  }

  /** The fee field matched against the booked value, in the same currency. */
  function RowFee(txn: LedgerTransaction): int {
    if txn.currency == Btc then OrZero(txn.satsFee) else OrZero(txn.centsFee)
  }

  /** The unsigned display value of whichever combination the booked value
      equals, tried in the order amount, fee, amount + fee, amount - fee. */
  function MatchedDisplayAmount(booked: int, amount: int, fee: int, displayAmount: int, displayFee: int): int {
    if booked == amount then displayAmount
    else if booked == fee then displayFee
    else if booked == amount + fee then displayAmount + displayFee
    else if booked == amount - fee then displayAmount - displayFee
    else 0
  }

  function FromTxn(txn: LedgerTransaction): (r: SettlementAmounts)
    // the settlement amount is the signed credit or debit
    ensures txn.debit == 0 ==> r.settlementAmount == txn.credit
    ensures txn.credit == 0 ==> r.settlementAmount == -txn.debit
    // the display fee is always the row's own, whatever the direction
    ensures r.settlementDisplayFee == DisplayAmount(OrZero(txn.displayFee), DisplayCurrencyOf(txn))
    ensures r.settlementDisplayAmount.currency == DisplayCurrencyOf(txn)
    // a credit shows the display value of the matching combination
    ensures (txn.debit == 0 && txn.credit >= 0 && txn.credit == RowAmount(txn)) ==>
      r.settlementDisplayAmount.amountInMinor == OrZero(txn.displayAmount)
    ensures (txn.debit == 0 && txn.credit >= 0 && txn.credit != RowAmount(txn)
             && txn.credit == RowFee(txn)) ==>
      r.settlementDisplayAmount.amountInMinor == OrZero(txn.displayFee)
    ensures (txn.debit == 0 && txn.credit >= 0 && txn.credit !in {RowAmount(txn), RowFee(txn)}
             && txn.credit == RowAmount(txn) + RowFee(txn)) ==>
      r.settlementDisplayAmount.amountInMinor == OrZero(txn.displayAmount) + OrZero(txn.displayFee)
    ensures (txn.debit == 0 && txn.credit >= 0
             && txn.credit !in {RowAmount(txn), RowFee(txn), RowAmount(txn) + RowFee(txn)}
             && txn.credit == RowAmount(txn) - RowFee(txn)) ==>
      r.settlementDisplayAmount.amountInMinor == OrZero(txn.displayAmount) - OrZero(txn.displayFee)
    // a debit shows the same value negated
    ensures (txn.credit == 0 && txn.debit > 0 && txn.debit == RowAmount(txn)) ==>
      r.settlementDisplayAmount.amountInMinor == -OrZero(txn.displayAmount)
    ensures (txn.credit == 0 && txn.debit > 0 && txn.debit != RowAmount(txn)
             && txn.debit == RowFee(txn)) ==>
      r.settlementDisplayAmount.amountInMinor == -OrZero(txn.displayFee)
    ensures (txn.credit == 0 && txn.debit > 0 && txn.debit !in {RowAmount(txn), RowFee(txn)}
             && txn.debit == RowAmount(txn) + RowFee(txn)) ==>
      r.settlementDisplayAmount.amountInMinor == -(OrZero(txn.displayAmount) + OrZero(txn.displayFee))
    ensures (txn.credit == 0 && txn.debit > 0
             && txn.debit !in {RowAmount(txn), RowFee(txn), RowAmount(txn) + RowFee(txn)}
             && txn.debit == RowAmount(txn) - RowFee(txn)) ==>
      r.settlementDisplayAmount.amountInMinor == -(OrZero(txn.displayAmount) - OrZero(txn.displayFee))
  {
    var signed := txn.credit - txn.debit;
    var booked := if signed < 0 then -signed else signed;
    var unsigned := MatchedDisplayAmount(booked, RowAmount(txn), RowFee(txn),
                                         OrZero(txn.displayAmount), OrZero(txn.displayFee));
    var currency := DisplayCurrencyOf(txn);
    SettlementAmounts(
      signed,
      DisplayAmount(if signed < 0 then -unsigned else unsigned, currency),
      DisplayAmount(OrZero(txn.displayFee), currency))
  }

  /** Booking the same figures as a debit instead of a credit negates the
      settlement and display amounts and leaves the display fee alone. */
  lemma FromTxnMirror(txn: LedgerTransaction)
    requires txn.debit == 0 && txn.credit > 0
    ensures var credited := FromTxn(txn);
      var debited := FromTxn(txn.(debit := txn.credit, credit := 0));
      && debited.settlementAmount == -credited.settlementAmount
      && debited.settlementDisplayAmount.amountInMinor == -credited.settlementDisplayAmount.amountInMinor
      && debited.settlementDisplayAmount.currency == credited.settlementDisplayAmount.currency
      && debited.settlementDisplayFee == credited.settlementDisplayFee
  {
  }
}

=== FILE: shared.dfy ===
/** Shared vocabulary of the wallet domain: wallet currencies, identifiers,
    display amounts, and the JavaScript truthiness rules the source leans on. */
module Shared {
  import opened Wrappers

  /** The currency a wallet is denominated in. Base units are satoshis for
      BTC and cents for USD. */
  datatype WalletCurrency = Btc | Usd

  type WalletId = string
  type AccountId = string
  type Username = string
  type OnChainAddress = string
  type OnChainTxHash = string

  /** A display currency is an ISO code such as "USD" or "TTD". */
  type DisplayCurrency = string

  const DisplayCurrencyUsd: DisplayCurrency := "USD"

  /** An amount in the minor unit of a display currency. The conversion to
      major units (a floating-point division) is not modelled. */
  datatype DisplayAmount = DisplayAmount(amountInMinor: int, currency: DisplayCurrency)

  /** JavaScript truthiness of an optional string: `undefined` and `""` are falsy. */
  predicate Truthy(s: Option<string>) {
    s.Some? && s.value != ""
  }

  /** `s || fallback` for an optional string. */
  function OrElse(s: Option<string>, fallback: string): (r: string)
    ensures Truthy(s) ==> r == s.value
    ensures !Truthy(s) ==> r == fallback
  {
    if Truthy(s) then s.value else fallback
  }

  /** `s || null` for an optional string: falsy strings become None. */
  function OrNull(s: Option<string>): (r: Option<string>)
    ensures r.Some? <==> Truthy(s)
    ensures r.Some? ==> r == s
  {
    if Truthy(s) then s else None
  }

  /** `n || 0` for an optional number: `undefined` (and 0 itself) become 0. */
  function OrZero(n: Option<int>): int {
    n.GetOr(0)
  }
}

=== FILE: tx_history.dfy ===
/** The transaction-history translator: ledger rows become wallet
    transactions (type-tag mapping, defaults, memo visibility), and pending
    incoming on-chain outputs become synthetic Pending transactions placed
    ahead of the confirmed history. Pure functions, no I/O. */
module TxHistory {
  import opened Wrappers
  import opened Shared
  import opened Ledger
  import opened WalletTypes
  import opened SettlementAmounts

  // ---------------------------------------------------------------------
  // Memo visibility

  /** Deployment configuration: the memo-sharing thresholds, in sats and in
      cents, and the onboarding-reward keys whose memos are always shown. */
  datatype MemoConfig = MemoConfig(satsThreshold: int, centsThreshold: int, onboardingKeys: set<string>)

  function MemoThreshold(cfg: MemoConfig, currency: WalletCurrency): int {
    if currency == Btc then cfg.satsThreshold else cfg.centsThreshold
  }

  /** A memo is authorized when it is non-empty and an onboarding-reward key. */
  predicate IsAuthorizedMemo(cfg: MemoConfig, memo: Option<string>) {
    Truthy(memo) && memo.value in cfg.onboardingKeys
  }

  predicate ShouldDisplayMemo(cfg: MemoConfig, memo: Option<string>, credit: int, currency: WalletCurrency) {
    if IsAuthorizedMemo(cfg, memo) || credit == 0 then true
    else if currency == Btc then credit >= cfg.satsThreshold
    else credit >= cfg.centsThreshold
  }

  /** The payer's memo when it is non-empty, otherwise the invoice memo. */
  function MemoCandidate(memoFromPayer: Option<string>, lnMemo: Option<string>): Option<string> {
    if Truthy(memoFromPayer) then memoFromPayer else lnMemo
  }

  predicate IsNonEndUserWallet(walletId: Option<WalletId>, nonEndUserWalletIds: seq<WalletId>) {
    Truthy(walletId) && walletId.value in nonEndUserWalletIds
  }

  /** The memo-sharing rules: an onboarding-reward memo and a zero credit
      always share; otherwise the credit must reach the currency's threshold,
      so a larger positive credit shares whenever a smaller one does. An
      empty memo is never an onboarding-reward memo. */
  lemma MemoVisibilityRules(cfg: MemoConfig, memo: Option<string>, credit: int, larger: int, currency: WalletCurrency)
    ensures IsAuthorizedMemo(cfg, memo) ==> ShouldDisplayMemo(cfg, memo, credit, currency)
    ensures credit == 0 ==> ShouldDisplayMemo(cfg, memo, credit, currency)
    ensures (!IsAuthorizedMemo(cfg, memo) && credit != 0) ==>
      (ShouldDisplayMemo(cfg, memo, credit, currency) <==> credit >= MemoThreshold(cfg, currency))
    ensures (0 < credit <= larger && ShouldDisplayMemo(cfg, memo, credit, currency)) ==>
      ShouldDisplayMemo(cfg, memo, larger, currency)
    ensures IsAuthorizedMemo(cfg, memo) <==> memo.Some? && memo.value != "" && memo.value in cfg.onboardingKeys
  {
  }

  const JournalIdPrefix: string := "JournalId:"

  function TranslateMemo(
    cfg: MemoConfig,
    memoFromPayer: Option<string>,
    lnMemo: Option<string>,
    credit: int,
    currency: WalletCurrency,
    walletId: Option<WalletId>,
    nonEndUserWalletIds: seq<WalletId>,
    journalId: string): (r: Option<string>)
    // an internal wallet sees its journal reference, whatever the memo or amount
    ensures IsNonEndUserWallet(walletId, nonEndUserWalletIds) ==> r == Some(JournalIdPrefix + journalId)
    // otherwise a memo is shown iff it is present and authorized, on a zero
    // credit, or at or above the currency's threshold
    ensures !IsNonEndUserWallet(walletId, nonEndUserWalletIds) ==>
      (r.Some? <==>
        var memo := MemoCandidate(memoFromPayer, lnMemo);
        Truthy(memo)
        && (IsAuthorizedMemo(cfg, memo) || credit == 0 || credit >= MemoThreshold(cfg, currency)))
    // and the memo shown is the payer's when non-empty, else the invoice's
    ensures !IsNonEndUserWallet(walletId, nonEndUserWalletIds) && r.Some? ==>
      (Truthy(memoFromPayer) ==> r == memoFromPayer) && (!Truthy(memoFromPayer) ==> r == lnMemo)
  {
    if IsNonEndUserWallet(walletId, nonEndUserWalletIds) then
      Some(JournalIdPrefix + journalId)
    else
      var memo := MemoCandidate(memoFromPayer, lnMemo);
      if ShouldDisplayMemo(cfg, memo, credit, currency) then OrNull(memo) else None
  }

  // ---------------------------------------------------------------------
  // Display price

  /** Display minor units per wallet base unit; a zero wallet amount gives a
      zero price instead of a division by zero. */
  function DisplayCurrencyPerBaseUnitFromAmounts(
    displayAmount: int,
    displayCurrency: DisplayCurrency,
    walletAmount: int,
    walletCurrency: WalletCurrency): (p: DisplayPrice)
    ensures walletAmount == 0 ==> p.priceOfOneSatInMinorUnit == 0.0
    ensures walletAmount != 0 ==>
      p.priceOfOneSatInMinorUnit * (walletAmount as real) == displayAmount as real
    ensures p.displayCurrency == displayCurrency && p.walletCurrency == walletCurrency
  {
    var price := if walletAmount != 0 then (displayAmount as real) / (walletAmount as real) else 0.0;
    DisplayPrice(price, displayCurrency, walletCurrency)
  }

  // ---------------------------------------------------------------------
  // Ledger row to wallet transaction

  const DefaultOnChainAddress: OnChainAddress := "<no-address>"

  /** JavaScript `Math.round` on an exact value: halves round up. */
  function JsRound(x: real): int {
    (x + 0.5).Floor
  }

  /** A legacy dollar field of admin rows, in cents: `v ? Math.round(v * 100) : 0`. */
  function LegacyCents(v: Option<real>): int {
    if v.Some? && v.value != 0.0 then JsRound(v.value * 100.0) else 0
  }

  function Abs(x: int): nat {
    if x < 0 then -x else x
  }

  /** The tag the switch dispatches on: an intraledger row with a payment hash
      is a Lightning intraledger payment. */
  function EffectiveType(txn: LedgerTransaction): LedgerTransactionType {
    if txn.txType == IntraLedger && Truthy(txn.paymentHash) then LnIntraLedger else txn.txType
  }

  function InitiationFor(txn: LedgerTransaction): InitiationVia {
    match EffectiveType(txn)
    case OnchainIntraLedger | OnChainTradeIntraAccount | OnchainPayment | OnchainReceipt =>
      InitiationViaOnChain(OrElse(txn.address, DefaultOnChainAddress))
    case LnIntraLedger | LnTradeIntraAccount | Payment | Invoice =>
      InitiationViaLn(txn.paymentHash, txn.pubkey)
    case _ =>
      InitiationViaIntraledger(txn.recipientWalletId, txn.username)
  }

  function SettlementFor(txn: LedgerTransaction): SettlementVia {
    match EffectiveType(txn)
    case IntraLedger | WalletIdTradeIntraAccount =>
      SettlementViaIntraledger(txn.recipientWalletId, txn.username)
    case OnchainPayment | OnchainReceipt =>
      SettlementViaOnChain(txn.txHash)
    case Payment | Invoice =>
      SettlementViaLn(None)
    case _ =>
      SettlementViaIntraledger(txn.recipientWalletId, OrNull(txn.username))
  }

  /** The per-currency amount and fee fields after the admin override: admin
      rows take their display amount and fees from the legacy `usd`, `feeUsd`
      and `fee` fields, and their sats amount is the size of the settlement
      amount. */
  datatype RowFigures = RowFigures(
    satsAmount: int, satsFee: int, centsAmount: int, centsFee: int, displayAmount: int)

  function FiguresOf(txn: LedgerTransaction, settlementAmount: int): RowFigures {
    if IsAdmin(txn.txType) then
      RowFigures(Abs(settlementAmount), OrZero(txn.fee),
                 LegacyCents(txn.usd), LegacyCents(txn.feeUsd), LegacyCents(txn.usd))
    else
      RowFigures(OrZero(txn.satsAmount), OrZero(txn.satsFee),
                 OrZero(txn.centsAmount), OrZero(txn.centsFee), OrZero(txn.displayAmount))
  }

  function TranslateLedgerTxnToWalletTxn(cfg: MemoConfig, txn: LedgerTransaction, nonEndUserWalletIds: seq<WalletId>)
    : (tx: WalletTransaction)
    // every translated row is a member of the WalletTransaction union
    ensures VariantOf(tx.initiationVia, tx.settlementVia).Some?
    ensures tx.id == txn.id && tx.walletId == txn.walletId && tx.createdAt == txn.timestamp
    ensures tx.status == Pending <==> txn.pendingConfirmation
    ensures tx.status == Pending || tx.status == Success
    // signed settlement amount in the row's own currency
    ensures tx.settlementCurrency == txn.currency
    ensures txn.debit == 0 ==> tx.settlementAmount == txn.credit
    ensures txn.credit == 0 ==> tx.settlementAmount == -txn.debit
    // the fee is read from the row's own currency, a missing one being 0
    ensures !IsAdmin(txn.txType) && txn.currency == Btc ==> tx.settlementFee == OrZero(txn.satsFee)
    ensures !IsAdmin(txn.txType) && txn.currency == Usd ==> tx.settlementFee == OrZero(txn.centsFee)
    ensures IsAdmin(txn.txType) && txn.currency == Btc ==> tx.settlementFee == OrZero(txn.fee)
    ensures IsAdmin(txn.txType) && txn.currency == Usd ==> tx.settlementFee == LegacyCents(txn.feeUsd)
    // a missing display currency is USD
    ensures !Truthy(txn.displayCurrency) ==>
      tx.settlementDisplayPrice.displayCurrency == DisplayCurrencyUsd
      && tx.settlementDisplayAmount.currency == DisplayCurrencyUsd
      && tx.settlementDisplayFee.currency == DisplayCurrencyUsd
    ensures tx.settlementDisplayFee.amountInMinor == OrZero(txn.displayFee)
    // a present display currency is kept
    ensures Truthy(txn.displayCurrency) ==> tx.settlementDisplayPrice.displayCurrency == txn.displayCurrency.value
    // display amount and fee are the row's settlement amounts
    ensures tx.settlementDisplayAmount == FromTxn(txn).settlementDisplayAmount
    ensures tx.settlementDisplayFee == FromTxn(txn).settlementDisplayFee
    // the display price is the row's display amount per unit of its own-currency amount
    ensures !IsAdmin(txn.txType) ==>
      tx.settlementDisplayPrice == DisplayCurrencyPerBaseUnitFromAmounts(
        OrZero(txn.displayAmount), OrElse(txn.displayCurrency, DisplayCurrencyUsd),
        if txn.currency == Btc then OrZero(txn.satsAmount) else OrZero(txn.centsAmount),
        txn.currency)
    // on admin rows both come from the legacy fields: dollars in cents, and the
    // magnitude of the settlement for BTC
    ensures IsAdmin(txn.txType) ==>
      tx.settlementDisplayPrice == DisplayCurrencyPerBaseUnitFromAmounts(
        LegacyCents(txn.usd), OrElse(txn.displayCurrency, DisplayCurrencyUsd),
        if txn.currency == Btc then Abs(tx.settlementAmount) else LegacyCents(txn.usd),
        txn.currency)
    ensures tx.memo == TranslateMemo(cfg, txn.memoFromPayer, txn.lnMemo, txn.credit, txn.currency,
                                     txn.walletId, nonEndUserWalletIds, txn.journalId)
  {
    var displayCurrency := OrElse(txn.displayCurrency, DisplayCurrencyUsd);
    var amounts := FromTxn(txn);
    var figures := FiguresOf(txn, amounts.settlementAmount);
    var memo := TranslateMemo(cfg, txn.memoFromPayer, txn.lnMemo, txn.credit, txn.currency,
                              txn.walletId, nonEndUserWalletIds, txn.journalId);
    WalletTransaction(
      id := txn.id,
      walletId := txn.walletId,
      settlementAmount := amounts.settlementAmount,
      settlementFee := if txn.currency == Btc then figures.satsFee else figures.centsFee,
      settlementCurrency := txn.currency,
      settlementDisplayAmount := amounts.settlementDisplayAmount,
      settlementDisplayFee := amounts.settlementDisplayFee,
      settlementDisplayPrice := DisplayCurrencyPerBaseUnitFromAmounts(
        figures.displayAmount, displayCurrency,
        if txn.currency == Btc then figures.satsAmount else figures.centsAmount,
        txn.currency),
      status := if txn.pendingConfirmation then Pending else Success,
      memo := memo,
      createdAt := txn.timestamp,
      initiationVia := InitiationFor(txn),
      settlementVia := SettlementFor(txn))
  }

  /** The type-tag mapping: which (initiation, settlement) shape each ledger
      tag produces, with its defaults. */
  lemma TranslateTypeTags(cfg: MemoConfig, txn: LedgerTransaction, ids: seq<WalletId>)
    ensures var tx := TranslateLedgerTxnToWalletTxn(cfg, txn, ids);
      && (txn.txType == IntraLedger && Truthy(txn.paymentHash) ==>
            tx.initiationVia == InitiationViaLn(txn.paymentHash, txn.pubkey)
            && tx.settlementVia == SettlementViaIntraledger(txn.recipientWalletId, OrNull(txn.username)))
      && (txn.txType in {IntraLedger, WalletIdTradeIntraAccount} && !Truthy(txn.paymentHash) ==>
            tx.initiationVia == InitiationViaIntraledger(txn.recipientWalletId, txn.username)
            && tx.settlementVia == SettlementViaIntraledger(txn.recipientWalletId, txn.username))
      && (txn.txType in {OnchainIntraLedger, OnChainTradeIntraAccount} ==>
            tx.initiationVia == InitiationViaOnChain(OrElse(txn.address, DefaultOnChainAddress))
            && tx.settlementVia == SettlementViaIntraledger(txn.recipientWalletId, OrNull(txn.username)))
      && (txn.txType in {OnchainPayment, OnchainReceipt} ==>
            tx.initiationVia == InitiationViaOnChain(OrElse(txn.address, DefaultOnChainAddress))
            && tx.settlementVia == SettlementViaOnChain(txn.txHash))
      && (txn.txType in {LnIntraLedger, LnTradeIntraAccount} ==>
            tx.initiationVia == InitiationViaLn(txn.paymentHash, txn.pubkey)
            && tx.settlementVia == SettlementViaIntraledger(txn.recipientWalletId, OrNull(txn.username)))
      && (txn.txType in {Payment, Invoice} ==>
            tx.initiationVia == InitiationViaLn(txn.paymentHash, txn.pubkey)
            && tx.settlementVia == SettlementViaLn(None))
      && (txn.txType.Admin? || txn.txType.Other? ==>
            tx.initiationVia == InitiationViaIntraledger(txn.recipientWalletId, txn.username)
            && tx.settlementVia == SettlementViaIntraledger(txn.recipientWalletId, OrNull(txn.username)))
  {
  }

  /** The row fields the declared type of the produced shape needs: the
      translator fills them through unchecked casts, so it produces a value
      of the declared type exactly when the row carries them. */
  predicate RowCarriesDeclaredFields(txn: LedgerTransaction) {
    match EffectiveType(txn)
    case OnchainIntraLedger | OnChainTradeIntraAccount =>
      txn.recipientWalletId.Some?
    case OnchainPayment | OnchainReceipt =>
      txn.txHash.Some?
    case LnIntraLedger | LnTradeIntraAccount =>
      txn.paymentHash.Some? && txn.pubkey.Some? && txn.recipientWalletId.Some?
    case Payment | Invoice =>
      txn.paymentHash.Some? && txn.pubkey.Some?
    case _ =>
      txn.recipientWalletId.Some? && txn.username.Some?
  }

  lemma TranslateWellTypedIff(cfg: MemoConfig, txn: LedgerTransaction, ids: seq<WalletId>)
    ensures WellTyped(TranslateLedgerTxnToWalletTxn(cfg, txn, ids)) <==> RowCarriesDeclaredFields(txn)
  {
  }

  // ---------------------------------------------------------------------
  // Confirmed history

  function FromLedger(cfg: MemoConfig, ledgerTransactions: seq<LedgerTransaction>, nonEndUserWalletIds: seq<WalletId>)
    : (h: ConfirmedTransactionHistory)
    ensures |h.transactions| == |ledgerTransactions|
    ensures forall i :: 0 <= i < |ledgerTransactions| ==>
      h.transactions[i] == TranslateLedgerTxnToWalletTxn(cfg, ledgerTransactions[i], nonEndUserWalletIds)
  {
    if |ledgerTransactions| == 0 then
      ConfirmedTransactionHistory([])
    else
      var rest := FromLedger(cfg, ledgerTransactions[1..], nonEndUserWalletIds);
      ConfirmedTransactionHistory(
        [TranslateLedgerTxnToWalletTxn(cfg, ledgerTransactions[0], nonEndUserWalletIds)] + rest.transactions)
  }

  // ---------------------------------------------------------------------
  // Pending incoming on-chain outputs

  /** Every wallet the address lists name has its details: the source reads
      the details of each listed wallet before looking at its addresses. */
  predicate DetailsCover(wallets: seq<(WalletId, seq<OnChainAddress>)>, details: map<WalletId, WalletDetails>) {
    forall k :: 0 <= k < |wallets| ==> wallets[k].0 in details
  }

  /** The synthetic Pending transaction for one output paying into one wallet. */
  function PendingItem(depositFees: DepositFeeCalculator, tx: IncomingOnChainTransaction, out: TxOut,
                       walletId: WalletId, d: WalletDetails): WalletTransaction
    requires out.address.Some?
  {
    var fee := depositFees.onChainDepositFee(out.sats, d.depositFeeRatio);
    var settlementSats := out.sats - fee;
    var settlementAmount :=
      if d.walletCurrency == Btc then settlementSats
      else if d.walletPriceRatio.None? then 0
      else d.walletPriceRatio.value.convertFromBtc(settlementSats);
    var settlementFee :=
      if d.walletCurrency == Btc then fee
      else if d.walletPriceRatio.None? then 0
      else d.walletPriceRatio.value.convertFromBtcToCeil(fee);
    var ratio := d.displayPriceRatio;
    WalletTransaction(
      id := tx.rawTx.txHash,
      walletId := Some(walletId),
      settlementAmount := settlementAmount,
      settlementFee := settlementFee,
      settlementCurrency := d.walletCurrency,
      settlementDisplayAmount := DisplayAmount(ratio.convertFromWallet(settlementSats), ratio.displayCurrency),
      settlementDisplayFee := DisplayAmount(ratio.convertFromWalletToCeil(fee), ratio.displayCurrency),
      settlementDisplayPrice := DisplayPrice(ratio.displayMinorUnitPerWalletUnit, ratio.displayCurrency, d.walletCurrency),
      status := Pending,
      memo := None,
      createdAt := tx.createdAt,
      initiationVia := InitiationViaOnChain(out.address.value),
      settlementVia := SettlementViaOnChain(Some(tx.rawTx.txHash)))
  }

  /** Whether output `out` pays into wallet entry `w`. */
  predicate PaysInto(out: TxOut, w: (WalletId, seq<OnChainAddress>)) {
    Truthy(out.address) && out.address.value in w.1
  }

  /** The items for one output: one per wallet, in key order, whose address
      list contains the output's address. */
  function PendingForOutput(depositFees: DepositFeeCalculator, tx: IncomingOnChainTransaction, out: TxOut,
                            wallets: seq<(WalletId, seq<OnChainAddress>)>, details: map<WalletId, WalletDetails>)
    : seq<WalletTransaction>
    requires DetailsCover(wallets, details)
    decreases |wallets|
  {
    if |wallets| == 0 || !Truthy(out.address) then []
    else
      var w := wallets[0];
      var head := if out.address.value in w.1 then [PendingItem(depositFees, tx, out, w.0, details[w.0])] else [];
      head + PendingForOutput(depositFees, tx, out, wallets[1..], details)
  }

  function PendingForOutputs(depositFees: DepositFeeCalculator, tx: IncomingOnChainTransaction, outs: seq<TxOut>,
                             wallets: seq<(WalletId, seq<OnChainAddress>)>, details: map<WalletId, WalletDetails>)
    : seq<WalletTransaction>
    requires DetailsCover(wallets, details)
    decreases |outs|
  {
    if |outs| == 0 then []
    else PendingForOutput(depositFees, tx, outs[0], wallets, details) + PendingForOutputs(depositFees, tx, outs[1..], wallets, details)
  }

  function PendingForTxs(depositFees: DepositFeeCalculator, txs: seq<IncomingOnChainTransaction>,
                         wallets: seq<(WalletId, seq<OnChainAddress>)>, details: map<WalletId, WalletDetails>)
    : seq<WalletTransaction>
    requires DetailsCover(wallets, details)
    decreases |txs|
  {
    if |txs| == 0 then []
    else PendingForOutputs(depositFees, txs[0], txs[0].rawTx.outs, wallets, details) + PendingForTxs(depositFees, txs[1..], wallets, details)
  }

  function FilterPendingIncoming(depositFees: DepositFeeCalculator, args: AddPendingIncomingArgs): seq<WalletTransaction>
    requires DetailsCover(args.addressesByWalletId, args.walletDetailsByWalletId)
  {
    PendingForTxs(depositFees, args.pendingIncoming, args.addressesByWalletId, args.walletDetailsByWalletId)
  }

  /** Pending items come first, then the confirmed history unchanged. */
  function AddPendingIncoming(depositFees: DepositFeeCalculator, history: ConfirmedTransactionHistory, args: AddPendingIncomingArgs)
    : (r: WalletTransactionHistoryWithPending)
    requires DetailsCover(args.addressesByWalletId, args.walletDetailsByWalletId)
    ensures var pending := FilterPendingIncoming(depositFees, args);
      && |r.transactions| == |pending| + |history.transactions|
      && r.transactions[..|pending|] == pending
      && r.transactions[|pending|..] == history.transactions
  {
    WalletTransactionHistoryWithPending(FilterPendingIncoming(depositFees, args) + history.transactions)
  }

  // ---------------------------------------------------------------------
  // What the pending items are: exactly one candidate per (output with an
  // address, wallet listing that address), each a well-formed Pending
  // on-chain transaction.

  /** Output `j` of pending transaction `i` pays into wallet entry `k`. */
  predicate IsMatch(args: AddPendingIncomingArgs, i: int, j: int, k: int) {
    && 0 <= i < |args.pendingIncoming|
    && 0 <= j < |args.pendingIncoming[i].rawTx.outs|
    && 0 <= k < |args.addressesByWalletId|
    && PaysInto(args.pendingIncoming[i].rawTx.outs[j], args.addressesByWalletId[k])
  }

  function MatchItem(depositFees: DepositFeeCalculator, args: AddPendingIncomingArgs, i: int, j: int, k: int): WalletTransaction
    requires DetailsCover(args.addressesByWalletId, args.walletDetailsByWalletId)
    requires IsMatch(args, i, j, k)
  {
    var w := args.addressesByWalletId[k];
    PendingItem(depositFees, args.pendingIncoming[i], args.pendingIncoming[i].rawTx.outs[j],
                w.0, args.walletDetailsByWalletId[w.0])
  }

  lemma {:induction false} PendingForOutputMembers(depositFees: DepositFeeCalculator, tx: IncomingOnChainTransaction, out: TxOut,
                                                   wallets: seq<(WalletId, seq<OnChainAddress>)>, details: map<WalletId, WalletDetails>)
    requires DetailsCover(wallets, details)
    ensures forall t :: t in PendingForOutput(depositFees, tx, out, wallets, details) <==>
      exists k :: 0 <= k < |wallets| && PaysInto(out, wallets[k])
                  && t == PendingItem(depositFees, tx, out, wallets[k].0, details[wallets[k].0])
    decreases |wallets|
  {
    if |wallets| == 0 || !Truthy(out.address) {
    } else {
      var rest := wallets[1..];
      PendingForOutputMembers(depositFees, tx, out, rest, details);
      forall t | t in PendingForOutput(depositFees, tx, out, wallets, details)
        ensures exists k :: 0 <= k < |wallets| && PaysInto(out, wallets[k])
                            && t == PendingItem(depositFees, tx, out, wallets[k].0, details[wallets[k].0])
      {
        if t !in PendingForOutput(depositFees, tx, out, rest, details) {
          assert PaysInto(out, wallets[0]);
        } else {
          var k :| 0 <= k < |rest| && PaysInto(out, rest[k])
                   && t == PendingItem(depositFees, tx, out, rest[k].0, details[rest[k].0]);
          assert rest[k] == wallets[k + 1];
        }
      }
      forall k | 0 <= k < |wallets| && PaysInto(out, wallets[k])
        ensures PendingItem(depositFees, tx, out, wallets[k].0, details[wallets[k].0])
                in PendingForOutput(depositFees, tx, out, wallets, details)
      {
        if k > 0 {
          assert wallets[k] == rest[k - 1];
        }
      }
    }
  }

  lemma {:induction false} PendingForOutputsMembers(depositFees: DepositFeeCalculator, tx: IncomingOnChainTransaction, outs: seq<TxOut>,
                                                    wallets: seq<(WalletId, seq<OnChainAddress>)>, details: map<WalletId, WalletDetails>)
    requires DetailsCover(wallets, details)
    ensures forall t :: t in PendingForOutputs(depositFees, tx, outs, wallets, details) <==>
      exists j, k :: 0 <= j < |outs| && 0 <= k < |wallets| && PaysInto(outs[j], wallets[k])
                     && t == PendingItem(depositFees, tx, outs[j], wallets[k].0, details[wallets[k].0])
    decreases |outs|
  {
    if |outs| > 0 {
      var rest := outs[1..];
      PendingForOutputMembers(depositFees, tx, outs[0], wallets, details);
      PendingForOutputsMembers(depositFees, tx, rest, wallets, details);
      forall t | t in PendingForOutputs(depositFees, tx, outs, wallets, details)
        ensures exists j, k :: 0 <= j < |outs| && 0 <= k < |wallets| && PaysInto(outs[j], wallets[k])
                               && t == PendingItem(depositFees, tx, outs[j], wallets[k].0, details[wallets[k].0])
      {
        if t in PendingForOutput(depositFees, tx, outs[0], wallets, details) {
          var k :| 0 <= k < |wallets| && PaysInto(outs[0], wallets[k])
                   && t == PendingItem(depositFees, tx, outs[0], wallets[k].0, details[wallets[k].0]);
          assert 0 <= 0 < |outs|;
        } else {
          assert t in PendingForOutputs(depositFees, tx, rest, wallets, details);
          var j, k :| 0 <= j < |rest| && 0 <= k < |wallets| && PaysInto(rest[j], wallets[k])
                      && t == PendingItem(depositFees, tx, rest[j], wallets[k].0, details[wallets[k].0]);
          assert rest[j] == outs[j + 1];
        }
      }
      forall j, k | 0 <= j < |outs| && 0 <= k < |wallets| && PaysInto(outs[j], wallets[k])
        ensures PendingItem(depositFees, tx, outs[j], wallets[k].0, details[wallets[k].0])
                in PendingForOutputs(depositFees, tx, outs, wallets, details)
      {
        if j > 0 {
          assert outs[j] == rest[j - 1];
        }
      }
    }
  }

  lemma {:induction false} PendingForTxsMembers(depositFees: DepositFeeCalculator, txs: seq<IncomingOnChainTransaction>,
                                                wallets: seq<(WalletId, seq<OnChainAddress>)>, details: map<WalletId, WalletDetails>)
    requires DetailsCover(wallets, details)
    ensures forall t :: t in PendingForTxs(depositFees, txs, wallets, details) <==>
      exists i, j, k :: 0 <= i < |txs| && 0 <= j < |txs[i].rawTx.outs| && 0 <= k < |wallets|
                        && PaysInto(txs[i].rawTx.outs[j], wallets[k])
                        && t == PendingItem(depositFees, txs[i], txs[i].rawTx.outs[j], wallets[k].0, details[wallets[k].0])
    decreases |txs|
  {
    if |txs| > 0 {
      var rest := txs[1..];
      PendingForOutputsMembers(depositFees, txs[0], txs[0].rawTx.outs, wallets, details);
      PendingForTxsMembers(depositFees, rest, wallets, details);
      forall t | t in PendingForTxs(depositFees, txs, wallets, details)
        ensures exists i, j, k :: 0 <= i < |txs| && 0 <= j < |txs[i].rawTx.outs| && 0 <= k < |wallets|
                                  && PaysInto(txs[i].rawTx.outs[j], wallets[k])
                                  && t == PendingItem(depositFees, txs[i], txs[i].rawTx.outs[j], wallets[k].0, details[wallets[k].0])
      {
        if t in PendingForOutputs(depositFees, txs[0], txs[0].rawTx.outs, wallets, details) {
          var j, k :| 0 <= j < |txs[0].rawTx.outs| && 0 <= k < |wallets| && PaysInto(txs[0].rawTx.outs[j], wallets[k])
                      && t == PendingItem(depositFees, txs[0], txs[0].rawTx.outs[j], wallets[k].0, details[wallets[k].0]);
          assert 0 <= 0 < |txs|;
        } else {
          assert t in PendingForTxs(depositFees, rest, wallets, details);
          var i, j, k :| 0 <= i < |rest| && 0 <= j < |rest[i].rawTx.outs| && 0 <= k < |wallets|
                         && PaysInto(rest[i].rawTx.outs[j], wallets[k])
                         && t == PendingItem(depositFees, rest[i], rest[i].rawTx.outs[j], wallets[k].0, details[wallets[k].0]);
          assert rest[i] == txs[i + 1];
        }
      }
      forall i, j, k | 0 <= i < |txs| && 0 <= j < |txs[i].rawTx.outs| && 0 <= k < |wallets|
                       && PaysInto(txs[i].rawTx.outs[j], wallets[k])
        ensures PendingItem(depositFees, txs[i], txs[i].rawTx.outs[j], wallets[k].0, details[wallets[k].0])
                in PendingForTxs(depositFees, txs, wallets, details)
      {
        if i > 0 {
          assert txs[i] == rest[i - 1];
        }
      }
    }
  }

  /** The pending items are exactly the items of the matching (output,
      wallet) pairs. */
  lemma FilterPendingIncomingMembers(depositFees: DepositFeeCalculator, args: AddPendingIncomingArgs)
    requires DetailsCover(args.addressesByWalletId, args.walletDetailsByWalletId)
    ensures forall t :: t in FilterPendingIncoming(depositFees, args) <==>
      exists i, j, k :: IsMatch(args, i, j, k) && t == MatchItem(depositFees, args, i, j, k)
  {
    var txs, wallets, details := args.pendingIncoming, args.addressesByWalletId, args.walletDetailsByWalletId;
    PendingForTxsMembers(depositFees, txs, wallets, details);
    forall t | t in FilterPendingIncoming(depositFees, args)
      ensures exists i, j, k :: IsMatch(args, i, j, k) && t == MatchItem(depositFees, args, i, j, k)
    {
      var i, j, k :| 0 <= i < |txs| && 0 <= j < |txs[i].rawTx.outs| && 0 <= k < |wallets|
                     && PaysInto(txs[i].rawTx.outs[j], wallets[k])
                     && t == PendingItem(depositFees, txs[i], txs[i].rawTx.outs[j], wallets[k].0, details[wallets[k].0]);
      assert IsMatch(args, i, j, k) && t == MatchItem(depositFees, args, i, j, k);
    }
  }

  /** Every pending item is a well-typed on-chain-settled Pending
      transaction, without memo, identified by its transaction hash. */
  lemma PendingItemsArePending(depositFees: DepositFeeCalculator, args: AddPendingIncomingArgs)
    requires DetailsCover(args.addressesByWalletId, args.walletDetailsByWalletId)
    ensures forall t :: t in FilterPendingIncoming(depositFees, args) ==>
      && t.status == Pending
      && t.memo == None
      && t.settlementVia == SettlementViaOnChain(Some(t.id))
      && VariantOf(t.initiationVia, t.settlementVia) == Some(WalletOnChainSettledTransaction)
      && WellTyped(t)
  {
    FilterPendingIncomingMembers(depositFees, args);
  }

  /** The item of a matching pair: it belongs to the wallet, carries the
      output's address, and its amounts are the deposit net of the deposit
      fee in sats for a BTC wallet, or zero for a USD wallet without a price
      ratio. */
  lemma MatchItemAmounts(depositFees: DepositFeeCalculator, args: AddPendingIncomingArgs, i: int, j: int, k: int)
    requires DetailsCover(args.addressesByWalletId, args.walletDetailsByWalletId)
    requires IsMatch(args, i, j, k)
    ensures var t := MatchItem(depositFees, args, i, j, k);
      var out := args.pendingIncoming[i].rawTx.outs[j];
      var w := args.addressesByWalletId[k];
      var d := args.walletDetailsByWalletId[w.0];
      var fee := depositFees.onChainDepositFee(out.sats, d.depositFeeRatio);
      && t.walletId == Some(w.0)
      && t.initiationVia == InitiationViaOnChain(out.address.value)
      && out.address.value in w.1
      && t.settlementCurrency == d.walletCurrency
      && (d.walletCurrency == Btc ==> t.settlementAmount == out.sats - fee && t.settlementFee == fee)
      && (d.walletCurrency == Usd && d.walletPriceRatio.None? ==> t.settlementAmount == 0 && t.settlementFee == 0)
  {
  }

  // ---------------------------------------------------------------------
  // Order and multiplicity of the pending items

  /** A (pending transaction, output, wallet entry) position. */
  type MatchIndex = (int, int, int)

  /** Lexicographic order on positions: the order in which the nested loops
      over transactions, outputs and wallet entries visit them. */
  predicate Before(a: MatchIndex, b: MatchIndex) {
    a.0 < b.0 || (a.0 == b.0 && (a.1 < b.1 || (a.1 == b.1 && a.2 < b.2)))
  }

  predicate Ascending(ms: seq<MatchIndex>) {
    forall n, m :: 0 <= n < m < |ms| ==> Before(ms[n], ms[m])
  }

  predicate AllMatch(args: AddPendingIncomingArgs, ms: seq<MatchIndex>) {
    forall x | x in ms :: IsMatch(args, x.0, x.1, x.2)
  }

  /** The matching positions of output `j` of transaction `i`, from wallet entry `k` on. */
  function WalletMatches(args: AddPendingIncomingArgs, i: int, j: int, k: int): seq<MatchIndex>
    requires 0 <= i < |args.pendingIncoming| && 0 <= j < |args.pendingIncoming[i].rawTx.outs|
    requires 0 <= k <= |args.addressesByWalletId|
    decreases |args.addressesByWalletId| - k
  {
    if k == |args.addressesByWalletId| then []
    else
      (if PaysInto(args.pendingIncoming[i].rawTx.outs[j], args.addressesByWalletId[k]) then [(i, j, k)] else [])
      + WalletMatches(args, i, j, k + 1)
  }

  /** The matching positions of transaction `i`, from output `j` on. */
  function OutputMatches(args: AddPendingIncomingArgs, i: int, j: int): seq<MatchIndex>
    requires 0 <= i < |args.pendingIncoming| && 0 <= j <= |args.pendingIncoming[i].rawTx.outs|
    decreases |args.pendingIncoming[i].rawTx.outs| - j
  {
    if j == |args.pendingIncoming[i].rawTx.outs| then []
    else WalletMatches(args, i, j, 0) + OutputMatches(args, i, j + 1)
  }

  /** The matching positions from transaction `i` on. */
  function TxMatches(args: AddPendingIncomingArgs, i: int): seq<MatchIndex>
    requires 0 <= i <= |args.pendingIncoming|
    decreases |args.pendingIncoming| - i
  {
    if i == |args.pendingIncoming| then []
    else OutputMatches(args, i, 0) + TxMatches(args, i + 1)
  }

  /** The items of a list of matching positions, one each, in its order. */
  function ItemsOf(depositFees: DepositFeeCalculator, args: AddPendingIncomingArgs, ms: seq<MatchIndex>)
    : (items: seq<WalletTransaction>)
    requires DetailsCover(args.addressesByWalletId, args.walletDetailsByWalletId)
    requires AllMatch(args, ms)
    ensures |items| == |ms|
    ensures forall n :: 0 <= n < |ms| ==> items[n] == MatchItem(depositFees, args, ms[n].0, ms[n].1, ms[n].2)
    decreases |ms|
  {
    if |ms| == 0 then []
    else
      assert ms[0] in ms;
      [MatchItem(depositFees, args, ms[0].0, ms[0].1, ms[0].2)] + ItemsOf(depositFees, args, ms[1..])
  }

  lemma ItemsOfAppend(depositFees: DepositFeeCalculator, args: AddPendingIncomingArgs, a: seq<MatchIndex>, b: seq<MatchIndex>)
    requires DetailsCover(args.addressesByWalletId, args.walletDetailsByWalletId)
    requires AllMatch(args, a) && AllMatch(args, b)
    ensures AllMatch(args, a + b)
    ensures ItemsOf(depositFees, args, a + b) == ItemsOf(depositFees, args, a) + ItemsOf(depositFees, args, b)
  {
    var whole := ItemsOf(depositFees, args, a + b);
    var parts := ItemsOf(depositFees, args, a) + ItemsOf(depositFees, args, b);
    forall n | 0 <= n < |whole|
      ensures whole[n] == parts[n]
    {
      if n >= |a| {
        assert (a + b)[n] == b[n - |a|];
      }
    }
  }

  lemma AscendingAppend(a: seq<MatchIndex>, b: seq<MatchIndex>)
    requires Ascending(a) && Ascending(b)
    requires forall x, y | x in a && y in b :: Before(x, y)
    ensures Ascending(a + b)
  {
    forall n, m | 0 <= n < m < |a + b|
      ensures Before((a + b)[n], (a + b)[m])
    {
      if m < |a| {
        assert (a + b)[n] == a[n] && (a + b)[m] == a[m];
      } else if n >= |a| {
        assert (a + b)[n] == b[n - |a|] && (a + b)[m] == b[m - |a|];
      } else {
        assert (a + b)[n] == a[n] && (a + b)[m] == b[m - |a|];
        assert a[n] in a && b[m - |a|] in b;
      }
    }
  }

  lemma {:induction false} WalletMatchesShape(args: AddPendingIncomingArgs, i: int, j: int, k: int)
    requires 0 <= i < |args.pendingIncoming| && 0 <= j < |args.pendingIncoming[i].rawTx.outs|
    requires 0 <= k <= |args.addressesByWalletId|
    ensures var ms := WalletMatches(args, i, j, k);
      && AllMatch(args, ms)
      && (forall x | x in ms :: x.0 == i && x.1 == j && x.2 >= k)
      && Ascending(ms)
      && (forall k' | k <= k' && IsMatch(args, i, j, k') :: (i, j, k') in ms)
    decreases |args.addressesByWalletId| - k
  {
    if k < |args.addressesByWalletId| {
      WalletMatchesShape(args, i, j, k + 1);
      var rest := WalletMatches(args, i, j, k + 1);
      var head: seq<MatchIndex> :=
        if PaysInto(args.pendingIncoming[i].rawTx.outs[j], args.addressesByWalletId[k]) then [(i, j, k)] else [];
      assert WalletMatches(args, i, j, k) == head + rest;
      AscendingAppend(head, rest);
    }
  }

  lemma {:induction false} OutputMatchesShape(args: AddPendingIncomingArgs, i: int, j: int)
    requires 0 <= i < |args.pendingIncoming| && 0 <= j <= |args.pendingIncoming[i].rawTx.outs|
    ensures var ms := OutputMatches(args, i, j);
      && AllMatch(args, ms)
      && (forall x | x in ms :: x.0 == i && x.1 >= j)
      && Ascending(ms)
      && (forall j', k' | j <= j' && IsMatch(args, i, j', k') :: (i, j', k') in ms)
    decreases |args.pendingIncoming[i].rawTx.outs| - j
  {
    if j < |args.pendingIncoming[i].rawTx.outs| {
      WalletMatchesShape(args, i, j, 0);
      OutputMatchesShape(args, i, j + 1);
      var head := WalletMatches(args, i, j, 0);
      var rest := OutputMatches(args, i, j + 1);
      AscendingAppend(head, rest);
      forall j', k' | j <= j' && IsMatch(args, i, j', k')
        ensures (i, j', k') in head + rest
      {
        if j' == j {
          assert (i, j', k') in head;
        } else {
          assert (i, j', k') in rest;
        }
      }
    }
  }

  lemma {:induction false} TxMatchesShape(args: AddPendingIncomingArgs, i: int)
    requires 0 <= i <= |args.pendingIncoming|
    ensures var ms := TxMatches(args, i);
      && AllMatch(args, ms)
      && (forall x | x in ms :: x.0 >= i)
      && Ascending(ms)
      && (forall i', j', k' | i <= i' && IsMatch(args, i', j', k') :: (i', j', k') in ms)
    decreases |args.pendingIncoming| - i
  {
    if i < |args.pendingIncoming| {
      OutputMatchesShape(args, i, 0);
      TxMatchesShape(args, i + 1);
      var head := OutputMatches(args, i, 0);
      var rest := TxMatches(args, i + 1);
      AscendingAppend(head, rest);
      forall i', j', k' | i <= i' && IsMatch(args, i', j', k')
        ensures (i', j', k') in head + rest
      {
        if i' == i {
          assert (i', j', k') in head;
        } else {
          assert (i', j', k') in rest;
        }
      }
    }
  }

  lemma DetailsCoverSuffix(wallets: seq<(WalletId, seq<OnChainAddress>)>, details: map<WalletId, WalletDetails>, k: int)
    requires DetailsCover(wallets, details) && 0 <= k <= |wallets|
    ensures DetailsCover(wallets[k..], details)
  {
    forall n | 0 <= n < |wallets[k..]|
      ensures wallets[k..][n].0 in details
    {
      assert wallets[k..][n] == wallets[k + n];
    }
  }

  lemma {:induction false} WalletMatchesItems(depositFees: DepositFeeCalculator, args: AddPendingIncomingArgs, i: int, j: int, k: int)
    requires DetailsCover(args.addressesByWalletId, args.walletDetailsByWalletId)
    requires 0 <= i < |args.pendingIncoming| && 0 <= j < |args.pendingIncoming[i].rawTx.outs|
    requires 0 <= k <= |args.addressesByWalletId|
    ensures DetailsCover(args.addressesByWalletId[k..], args.walletDetailsByWalletId)
    ensures AllMatch(args, WalletMatches(args, i, j, k))
    ensures PendingForOutput(depositFees, args.pendingIncoming[i], args.pendingIncoming[i].rawTx.outs[j],
                             args.addressesByWalletId[k..], args.walletDetailsByWalletId)
            == ItemsOf(depositFees, args, WalletMatches(args, i, j, k))
    decreases |args.addressesByWalletId| - k
  {
    var wallets, details := args.addressesByWalletId, args.walletDetailsByWalletId;
    var tx := args.pendingIncoming[i];
    var out := tx.rawTx.outs[j];
    DetailsCoverSuffix(wallets, details, k);
    WalletMatchesShape(args, i, j, k);
    if k < |wallets| {
      WalletMatchesItems(depositFees, args, i, j, k + 1);
      WalletMatchesShape(args, i, j, k + 1);
      var rest := WalletMatches(args, i, j, k + 1);
      var head: seq<MatchIndex> := if PaysInto(out, wallets[k]) then [(i, j, k)] else [];
      assert WalletMatches(args, i, j, k) == head + rest;
      assert AllMatch(args, head);
      ItemsOfAppend(depositFees, args, head, rest);
      assert wallets[k..][0] == wallets[k];
      assert wallets[k..][1..] == wallets[k + 1..];
      if Truthy(out.address) {
        assert PendingForOutput(depositFees, tx, out, wallets[k..], details)
            == (if out.address.value in wallets[k].1 then [PendingItem(depositFees, tx, out, wallets[k].0, details[wallets[k].0])] else [])
               + PendingForOutput(depositFees, tx, out, wallets[k + 1..], details);
      }
    }
  }

  lemma {:induction false} OutputMatchesItems(depositFees: DepositFeeCalculator, args: AddPendingIncomingArgs, i: int, j: int)
    requires DetailsCover(args.addressesByWalletId, args.walletDetailsByWalletId)
    requires 0 <= i < |args.pendingIncoming| && 0 <= j <= |args.pendingIncoming[i].rawTx.outs|
    ensures AllMatch(args, OutputMatches(args, i, j))
    ensures PendingForOutputs(depositFees, args.pendingIncoming[i], args.pendingIncoming[i].rawTx.outs[j..],
                              args.addressesByWalletId, args.walletDetailsByWalletId)
            == ItemsOf(depositFees, args, OutputMatches(args, i, j))
    decreases |args.pendingIncoming[i].rawTx.outs| - j
  {
    var outs := args.pendingIncoming[i].rawTx.outs;
    OutputMatchesShape(args, i, j);
    if j < |outs| {
      WalletMatchesItems(depositFees, args, i, j, 0);
      OutputMatchesItems(depositFees, args, i, j + 1);
      assert args.addressesByWalletId[0..] == args.addressesByWalletId;
      assert outs[j..][0] == outs[j];
      assert outs[j..][1..] == outs[j + 1..];
      ItemsOfAppend(depositFees, args, WalletMatches(args, i, j, 0), OutputMatches(args, i, j + 1));
    }
  }

  lemma {:induction false} TxMatchesItems(depositFees: DepositFeeCalculator, args: AddPendingIncomingArgs, i: int)
    requires DetailsCover(args.addressesByWalletId, args.walletDetailsByWalletId)
    requires 0 <= i <= |args.pendingIncoming|
    ensures AllMatch(args, TxMatches(args, i))
    ensures PendingForTxs(depositFees, args.pendingIncoming[i..], args.addressesByWalletId, args.walletDetailsByWalletId)
            == ItemsOf(depositFees, args, TxMatches(args, i))
    decreases |args.pendingIncoming| - i
  {
    var txs := args.pendingIncoming;
    TxMatchesShape(args, i);
    if i < |txs| {
      OutputMatchesItems(depositFees, args, i, 0);
      TxMatchesItems(depositFees, args, i + 1);
      assert txs[i].rawTx.outs[0..] == txs[i].rawTx.outs;
      assert txs[i..][0] == txs[i];
      assert txs[i..][1..] == txs[i + 1..];
      ItemsOfAppend(depositFees, args, OutputMatches(args, i, 0), TxMatches(args, i + 1));
    }
  }

  /** Every matching (transaction, output, wallet entry) position, in the
      order the loops visit them. */
  function Matches(args: AddPendingIncomingArgs): seq<MatchIndex> {
    TxMatches(args, 0)
  }

  /** The pending items are one per matching (transaction, output, wallet
      entry) position -- no position is dropped and none repeated -- in the
      order of the transactions, then their outputs, then the wallet entries. */
  lemma FilterPendingIncomingInOrder(depositFees: DepositFeeCalculator, args: AddPendingIncomingArgs)
    requires DetailsCover(args.addressesByWalletId, args.walletDetailsByWalletId)
    ensures var ms := Matches(args);
      var pending := FilterPendingIncoming(depositFees, args);
      && AllMatch(args, ms)
      && Ascending(ms)
      && (forall i, j, k | IsMatch(args, i, j, k) :: (i, j, k) in ms)
      && |pending| == |ms|
      && (forall n | 0 <= n < |ms| :: pending[n] == MatchItem(depositFees, args, ms[n].0, ms[n].1, ms[n].2))
  {
    TxMatchesShape(args, 0);
    TxMatchesItems(depositFees, args, 0);
    assert args.pendingIncoming[0..] == args.pendingIncoming;
  }
}

=== FILE: wallet_types.dfy ===
/** The wallet-domain types: the transaction read model (an initiation method
    crossed with a settlement method, plus legacy on-chain variants), the
    arguments of the pending-history step, the fee-calculator signatures and
    the shape of a validated payment input. */
module WalletTypes {
  import opened Wrappers
  import opened Shared
  import opened Errors

  datatype TxStatus = Pending | Success | Failure

  /** How a transaction was initiated. Fields the translator fills through an
      unchecked cast are optional here, so that a missing value stays visible;
      `WellTypedInitiation` states what the declared type promises. */
  datatype InitiationVia =
    | InitiationViaIntraledger(counterPartyWalletId: Option<WalletId>, counterPartyUsername: Option<Username>)
    | InitiationViaLn(paymentHash: Option<string>, pubkey: Option<string>)
    | InitiationViaOnChain(address: OnChainAddress)
      /** rows recorded before addresses were persisted */
    | InitiationViaOnChainLegacy(legacyAddress: Option<OnChainAddress>)

  /** How a transaction was settled. */
  datatype SettlementVia =
    | SettlementViaIntraledger(settlementWalletId: Option<WalletId>, settlementUsername: Option<Username>)
      /** the preimage is filled in later, by the resolver layer */
    | SettlementViaLn(revealedPreImage: Option<string>)
    | SettlementViaOnChain(transactionHash: Option<OnChainTxHash>)

  /** Price of one wallet base unit in display minor units. The source holds a
      floating-point number; the model holds the exact quotient. */
  datatype DisplayPrice = DisplayPrice(
    priceOfOneSatInMinorUnit: real,
    displayCurrency: DisplayCurrency,
    walletCurrency: WalletCurrency)

  datatype WalletTransaction = WalletTransaction(
    id: string,
    walletId: Option<WalletId>,
    settlementAmount: int,
    settlementFee: int,
    settlementCurrency: WalletCurrency,
    settlementDisplayAmount: DisplayAmount,
    settlementDisplayFee: DisplayAmount,
    settlementDisplayPrice: DisplayPrice,
    status: TxStatus,
    memo: Option<string>,
    createdAt: int,
    initiationVia: InitiationVia,
    settlementVia: SettlementVia)

  /** The seven members of the `WalletTransaction` union. */
  datatype TxVariant =
    | IntraLedgerTransaction
    | WalletOnChainIntraledgerTransaction
    | WalletOnChainSettledTransaction
    | WalletLegacyOnChainIntraledgerTransaction
    | WalletLegacyOnChainSettledTransaction
    | WalletLnIntraledgerTransaction
    | WalletLnSettledTransaction

  /** The `WalletOnChainTransaction` union. */
  function OnChainVariants(): set<TxVariant> {
    {WalletOnChainIntraledgerTransaction, WalletOnChainSettledTransaction,
     WalletLegacyOnChainIntraledgerTransaction, WalletLegacyOnChainSettledTransaction}
  }

  /** The `WalletLnTransaction` union. */
  function LnVariants(): set<TxVariant> {
    {WalletLnIntraledgerTransaction, WalletLnSettledTransaction}
  }

  predicate IsOnChainInitiation(i: InitiationVia) {
    i.InitiationViaOnChain? || i.InitiationViaOnChainLegacy?
  }

  /** The union member an (initiation, settlement) pair belongs to, if any. */
  function VariantOf(i: InitiationVia, s: SettlementVia): (v: Option<TxVariant>)
    ensures (v.Some? && v.value in OnChainVariants())
        <==> IsOnChainInitiation(i) && (s.SettlementViaIntraledger? || s.SettlementViaOnChain?)
    ensures (v.Some? && v.value in LnVariants())
        <==> i.InitiationViaLn? && (s.SettlementViaIntraledger? || s.SettlementViaLn?)
    ensures v == Some(IntraLedgerTransaction)
        <==> i.InitiationViaIntraledger? && s.SettlementViaIntraledger?
    ensures v.Some? && v.value in OnChainVariants() ==>
      ((v.value in {WalletLegacyOnChainIntraledgerTransaction, WalletLegacyOnChainSettledTransaction})
       <==> i.InitiationViaOnChainLegacy?)
    // and within each family, the settlement picks the member
    ensures v == Some(WalletOnChainIntraledgerTransaction) <==> i.InitiationViaOnChain? && s.SettlementViaIntraledger?
    ensures v == Some(WalletOnChainSettledTransaction) <==> i.InitiationViaOnChain? && s.SettlementViaOnChain?
    ensures v == Some(WalletLegacyOnChainIntraledgerTransaction)
        <==> i.InitiationViaOnChainLegacy? && s.SettlementViaIntraledger?
    ensures v == Some(WalletLegacyOnChainSettledTransaction) <==> i.InitiationViaOnChainLegacy? && s.SettlementViaOnChain?
    ensures v == Some(WalletLnIntraledgerTransaction) <==> i.InitiationViaLn? && s.SettlementViaIntraledger?
    ensures v == Some(WalletLnSettledTransaction) <==> i.InitiationViaLn? && s.SettlementViaLn?
  {
    match (i, s)
    case (InitiationViaIntraledger(_, _), SettlementViaIntraledger(_, _)) => Some(IntraLedgerTransaction)
    case (InitiationViaOnChain(_), SettlementViaIntraledger(_, _)) => Some(WalletOnChainIntraledgerTransaction)
    case (InitiationViaOnChain(_), SettlementViaOnChain(_)) => Some(WalletOnChainSettledTransaction)
    case (InitiationViaOnChainLegacy(_), SettlementViaIntraledger(_, _)) => Some(WalletLegacyOnChainIntraledgerTransaction)
    case (InitiationViaOnChainLegacy(_), SettlementViaOnChain(_)) => Some(WalletLegacyOnChainSettledTransaction)
    case (InitiationViaLn(_, _), SettlementViaIntraledger(_, _)) => Some(WalletLnIntraledgerTransaction)
    case (InitiationViaLn(_, _), SettlementViaLn(_)) => Some(WalletLnSettledTransaction)
    case _ => None
  }

  /** The declared field types of an initiation: an intraledger initiation
      names its counterparty wallet and a non-null username; a Lightning one
      its payment hash and payee key. */
  predicate WellTypedInitiation(i: InitiationVia) {
    match i
    case InitiationViaIntraledger(w, u) => w.Some? && u.Some?
    case InitiationViaLn(h, k) => h.Some? && k.Some?
    case InitiationViaOnChain(_) => true
    case InitiationViaOnChainLegacy(_) => true
  }

  /** The declared field types of a settlement: an intraledger settlement
      names its counterparty wallet (its username may be null), an on-chain
      one its transaction hash, and a Lightning one has no preimage yet. */
  predicate WellTypedSettlement(s: SettlementVia) {
    match s
    case SettlementViaIntraledger(w, _) => w.Some?
    case SettlementViaLn(p) => p.None?
    case SettlementViaOnChain(h) => h.Some?
  }

  /** A value of the declared `WalletTransaction` type. */
  predicate WellTyped(tx: WalletTransaction) {
    && VariantOf(tx.initiationVia, tx.settlementVia).Some?
    && WellTypedInitiation(tx.initiationVia)
    && WellTypedSettlement(tx.settlementVia)
  }

  datatype ConfirmedTransactionHistory = ConfirmedTransactionHistory(transactions: seq<WalletTransaction>)

  datatype WalletTransactionHistoryWithPending = WalletTransactionHistoryWithPending(transactions: seq<WalletTransaction>)

  // ---------------------------------------------------------------------
  // Pending incoming on-chain outputs

  type Satoshis = int
  type DepositFeeRatio = real

  datatype TxOut = TxOut(sats: Satoshis, address: Option<OnChainAddress>)

  datatype RawTx = RawTx(txHash: OnChainTxHash, outs: seq<TxOut>)

  datatype IncomingOnChainTransaction = IncomingOnChainTransaction(rawTx: RawTx, createdAt: int)

  /** BTC-to-wallet-currency conversion, rounding down and up. Its formula
      belongs to the price domain and is not part of this model. */
  datatype WalletPriceRatio = WalletPriceRatio(
    convertFromBtc: Satoshis -> int,
    convertFromBtcToCeil: Satoshis -> int)

  /** Wallet-to-display conversion (down and up) and the display price of one
      wallet base unit. */
  datatype DisplayPriceRatio = DisplayPriceRatio(
    displayCurrency: DisplayCurrency,
    convertFromWallet: Satoshis -> int,
    convertFromWalletToCeil: Satoshis -> int,
    displayMinorUnitPerWalletUnit: real)

  datatype WalletDetails = WalletDetails(
    walletCurrency: WalletCurrency,
    walletPriceRatio: Option<WalletPriceRatio>,
    depositFeeRatio: DepositFeeRatio,
    displayPriceRatio: DisplayPriceRatio)

  /** `addressesByWalletId` is an object, so it is an association list here,
      in the object's key order. */
  datatype AddPendingIncomingArgs = AddPendingIncomingArgs(
    pendingIncoming: seq<IncomingOnChainTransaction>,
    addressesByWalletId: seq<(WalletId, seq<OnChainAddress>)>,
    walletDetailsByWalletId: map<WalletId, WalletDetails>)

  // ---------------------------------------------------------------------
  // Amounts and fee-calculator signatures

  datatype PaymentAmount = PaymentAmount(amount: nat, currency: WalletCurrency)

  type BtcPaymentAmount = a: PaymentAmount | a.currency == Btc witness PaymentAmount(0, Btc)

  type UsdPaymentAmount = a: PaymentAmount | a.currency == Usd witness PaymentAmount(0, Usd)

  datatype PaymentAmountInAllCurrencies = PaymentAmountInAllCurrencies(btc: BtcPaymentAmount, usd: UsdPaymentAmount)

  /** The deposit fee calculator: an on-chain deposit fee in satoshis from an
      amount in satoshis and a ratio, and a constant Lightning deposit fee. */
  datatype DepositFeeCalculator = DepositFeeCalculator(
    onChainDepositFee: (Satoshis, DepositFeeRatio) -> Satoshis,
    lnDepositFee: Satoshis)

  datatype OnChainWithdrawalFeeArgs = OnChainWithdrawalFeeArgs(
    minerFee: BtcPaymentAmount,
    minBankFee: BtcPaymentAmount,
    imbalance: BtcPaymentAmount,
    amount: BtcPaymentAmount)

  /** Both parts of a withdrawal fee are BTC amounts by type. */
  datatype WithdrawalFee = WithdrawalFee(totalFee: BtcPaymentAmount, bankFee: BtcPaymentAmount)

  datatype OnChainFeeCalculator = OnChainFeeCalculator(
    withdrawalFee: OnChainWithdrawalFeeArgs -> WithdrawalFee,
    intraLedgerFees: PaymentAmountInAllCurrencies)

  // ---------------------------------------------------------------------
  // Payment-input validation

  /** A stored wallet; its on-chain address list is not needed here. */
  datatype Wallet = Wallet(id: WalletId, accountId: AccountId, currency: WalletCurrency)

  datatype ValidatePaymentInputArgs = ValidatePaymentInputArgs(
    amount: int,
    amountCurrency: Option<WalletCurrency>,
    senderWalletId: string,
    senderAccount: AccountId,
    recipientWalletId: Option<string>)

  datatype ValidatePaymentInputRet = ValidatePaymentInputRet(
    amount: PaymentAmount,
    senderWallet: Wallet,
    recipientWallet: Option<Wallet>)

  /** The validator's collaborators: its amount/currency check and its check
      of the sender account against the sender wallet (whose rules are not
      part of this model), and the wallet lookup it is configured with. */
  datatype PaymentInputChecks = PaymentInputChecks(
    checkedAmount: Result<PaymentAmount, AppError>,
    checkSenderAccount: (AccountId, Wallet) -> Option<AppError>,
    findById: WalletId -> Result<Wallet, AppError>)

  /** Validates a payment input. The result's type depends on the arguments:
      it carries a recipient wallet exactly when a recipient wallet id was
      supplied, and every wallet in it is the one the lookup returned. */
  function ValidatePaymentInput(args: ValidatePaymentInputArgs, checks: PaymentInputChecks)
    : (r: Result<ValidatePaymentInputRet, AppError>)
    ensures r.Ok? ==> (r.value.recipientWallet.Some? <==> args.recipientWalletId.Some?)
    ensures r.Ok? ==> checks.checkedAmount == Ok(r.value.amount)
    ensures r.Ok? ==> checks.findById(args.senderWalletId) == Ok(r.value.senderWallet)
    ensures r.Ok? ==> checks.checkSenderAccount(args.senderAccount, r.value.senderWallet).None?
    ensures r.Ok? && args.recipientWalletId.Some? ==>
      checks.findById(args.recipientWalletId.value) == Ok(r.value.recipientWallet.value)
    ensures r.Err? ==>
      || checks.checkedAmount.Err?
      || checks.findById(args.senderWalletId).Err?
      || (&& checks.findById(args.senderWalletId).Ok?
          && checks.checkSenderAccount(args.senderAccount, checks.findById(args.senderWalletId).value).Some?)
      || (args.recipientWalletId.Some? && checks.findById(args.recipientWalletId.value).Err?)
  {
    match checks.checkedAmount
    case Err(e) => Err(e)
    case Ok(amount) =>
      match checks.findById(args.senderWalletId)
      case Err(e) => Err(e)
      case Ok(sender) =>
        var accountError := checks.checkSenderAccount(args.senderAccount, sender);
        if accountError.Some? then Err(accountError.value)
        else match args.recipientWalletId
        case None => Ok(ValidatePaymentInputRet(amount, sender, None))
        case Some(rid) =>
          match checks.findById(rid)
          case Err(e) => Err(e)
          case Ok(recipient) => Ok(ValidatePaymentInputRet(amount, sender, Some(recipient)))
  }
}

=== FILE: wrappers.dfy ===
/** Failure-compatible value types: the model's stand-in for the source's
    `T | undefined` optional fields and its `T | Error` return values. */
module Wrappers {

  /** An optional value: `undefined`/`null` is None. */
  datatype Option<+T> = None | Some(value: T) {

    /** Returns the value, or `default` when there is none. */
    function GetOr(default: T): T {
      match this
      case Some(v) => v
      case None => default
    }
  }

  /** Either a value or an error value, as every fallible call returns. */
  datatype Result<+T, +E> = Ok(value: T) | Err(error: E) {

    predicate IsFailure() {
      Err?
    }
  }
}
